=== FILE: README.md ===
# auth.pcstyle.dev record logic in Dafny

This project models the server-side record logic of the auth.pcstyle.dev
single sign-on front end: the Convex functions in `convex/` that keep three
tables. The tables are the users, the device sessions and the append-only
audit log. The model covers:

- the self-service profile and session functions (`convex/users.ts`);
- the role-gated admin functions (`convex/admin.ts`): stats, the paginated user
  listing, user detail, role change, ban and unban, and the audit-log query;
- the identity-provider webhook sync and the internal account functions
  (`convex/auth.ts`);
- the near-duplicate webhook handlers that log a warning (`convex/workos.ts`).

The database is an immutable value `Db(users, sessions, auditLogs, nextId)`.
Each table is a sequence in insertion order, and `nextId` is the counter that
hands out fresh document ids. Every query is a pure function of the database.
Every mutation that can throw returns a `Result` whose success value carries
the new database, so a thrown error leaves no new state behind, just as a
Convex mutation rolls back; the ones that cannot throw (`createSession`,
`revokeAllSessions`, `createAuthAccount`, the `user.created` handlers) return
their result, which holds the new database, directly. `Date.now()` becomes a
`now: int` parameter.

`Valid(db)` states that document ids are distinct and below the counter, and
every mutation preserves it. The uniqueness of `authId` is a separate
predicate, `UniqueAuthIds`, because the code does not enforce it: every patch
and delete preserves it, and an insert preserves it exactly when the authId
is new. The webhook
`user.created` handler inserts without a check, and every lookup through
`.unique()` then fails. That failure is modelled as `Err(NotUnique)`.

Modules:

- `Wrappers` holds `Option` and `Result`.
- `Seqs` holds the array operations (`filter`, `map`, `slice`, `take`, a
  reversed index scan).
- `Sorting` is a stable descending sort, which is what `Array.prototype.sort`
  does with a `b - a` comparator.
- `Text` holds ASCII `toLowerCase`, `includes`, and `trim` over the ECMAScript
  whitespace set.
- `Schema` holds the tables and the primitive document operations.
- `Users`, `Admin`, `Auth` and `Workos` follow the four source files.

## Model

| member | source | states |
|---|---|---|
| Schema.ProfileOf | convex/users.ts:22-30 | the profile projection copies id, authId, email, name, avatar and createdAt, and reports a missing role as "user" |
| Schema.FindByAuthId | convex/users.ts:15-18 | `.withIndex("by_authId").unique()` yields none exactly when no row has the authId, fails with NotUnique exactly when two rows share it, and otherwise names the one row that has it |
| Schema.UniqueLookupSucceeds | convex/users.ts:15-18 | under the one-row-per-authId invariant, a `.unique()` lookup never fails |
| Schema.FindById | convex/users.ts:40 | `ctx.db.get(id)` finds a row exactly when some user carries that document id, and the row it finds carries it |
| Schema.AppendLog | convex/users.ts:82-87 | inserting an audit entry appends exactly one entry, with a fresh id, to the end of the log; every earlier entry and the other tables are unchanged, and ids stay distinct |
| Schema.InsertUser | convex/auth.ts:31-39 | inserting a user appends exactly that row with a fresh id, leaves the other tables alone and keeps ids distinct |
| Schema.InsertSession | convex/users.ts:126-132 | inserting a session appends exactly that row with a fresh id that no existing session has |
| Schema.PutUser | convex/admin.ts:217-220 | a patch replaces exactly one user row, keeps its id, and touches nothing else; when it keeps the authId, authIds are unique afterwards exactly when they were before |
| Schema.DeleteUserAt | convex/users.ts:295 | deleting a user removes exactly that row, keeps the other tables and id distinctness, and keeps authIds unique |
| Schema.DeleteSessionAt | convex/users.ts:153 | deleting a session removes exactly that row and keeps the other tables and id distinctness |
| Schema.DeleteSessionsOf | convex/users.ts:173-180 | deleting every session found through `by_user` keeps exactly the sessions of other owners, in order |
| Schema.DeleteSessionsOfFrame | convex/users.ts:173-180 | after that cascade the owner has no sessions, every other owner's sessions are the same sequence as before, and the table shrank by the owner's prior count |
| Schema.DeleteSessionAtFrame | convex/users.ts:153 | removing one session leaves every other owner's sessions unchanged |
| Schema.InsertSessionFrame | convex/users.ts:126-132 | appending a session adds it to its owner's sessions only |
| Users.GetProfile | convex/users.ts:12-32 | `getProfile` returns null exactly when no user has the authId; otherwise it returns the profile of the user who has it, with role defaulting to "user"; duplicates make `.unique()` fail |
| Users.GetById | convex/users.ts:37-54 | `getById` returns null exactly when no user has the id; otherwise it returns the projection of a user with that id, and under distinct ids that user is the only one |
| Users.ChangedFields | convex/users.ts:75-85 | the logged `changes` list names "name" exactly when a name was supplied and "avatarUrl" exactly when an avatar was supplied, and never "updatedAt"; with both supplied the list is `["name", "avatarUrl"]`, in the key order of the update object |
| Users.UpdateProfile | convex/users.ts:59-91 | succeeds exactly when one user has the authId, fails with "User not found" exactly when none has it; on success only that user's supplied name/avatar and updatedAt change, sessions are untouched, authIds stay unique, and one `profile.updated` entry listing the supplied fields is appended |
| Users.GetSessions | convex/users.ts:96-113 | `getSessions` lists exactly the user's sessions: as many as the user owns, each one a projection of one of them, every one of them present, and none marked current |
| Users.CreateSession | convex/users.ts:118-136 | adds one session owned by the user with lastActive == createdAt == now; existing sessions, users, the log, and every other user's sessions are unchanged |
| Users.RevokeSession | convex/users.ts:141-165 | fails with "Session not found or unauthorized" unless a session with that id is owned by the caller; otherwise exactly that session is removed, other owners keep their sessions, and one `session.revoked` entry with its device is appended |
| Users.RevokeAllSessions | convex/users.ts:170-192 | afterwards the user has no sessions; the reported count is the prior count, other users' sessions are unchanged, one `sessions.revoked_all` entry carrying the count is appended, and zero sessions is not an error |
| Users.GetConnectedApps | convex/users.ts:197-226 | the catalogue is the same three apps whatever the user, none with a recorded access |
| Users.DeleteAccount | convex/users.ts:264-299 | succeeds exactly when one user has the authId, fails with "User not found" exactly when none has it; on success the user's row and all their sessions are gone, other users' sessions are unchanged, authIds stay unique, and one `account.deleted` entry carrying the email is appended |
| Admin.RequireAdmin | convex/admin.ts:15-22 | the guard passes exactly when the caller's row exists and has role "admin"; otherwise it fails with "Unauthorized", or with NotUnique when the caller's authId is duplicated |
| Admin.AdminTarget | convex/admin.ts:197-209 | the mutation prologue: the admin guard, then "User not found" exactly when no user has the target id |
| Admin.AdminTargetFinds | convex/admin.ts:206 | under distinct ids, looking up an existing user's id finds that very row |
| Admin.GetStats | convex/admin.ts:11-51 | `getStats` succeeds exactly for an admin caller; totalUsers is the user count, activeSessions counts sessions active in the last 24 hours, newUsersThisWeek users created in the last 7 days, and adminCount users with role "admin" (at least one) |
| Admin.StatsCountNewSession | convex/admin.ts:28-33 | a new session, active at `now`, raises activeSessions by exactly one and no other count |
| Admin.StatsCountNewUser | convex/admin.ts:24-42 | a newly created account raises totalUsers and newUsersThisWeek by one, leaves the other counts alone, and keeps the caller an admin |
| Admin.Filtered | convex/admin.ts:79-91 | applying the search filter and then the role filter, each only when non-empty, selects the same users as one combined predicate |
| Admin.Paginate | convex/admin.ts:97-117 | for any limit, negative included, the page is as long as `slice(start, start + limit)` and holds the projections of the users from the clamped start on; for a non-negative limit it is exactly that slice's projection, at most `limit` long; totalCount is the list length; nextCursor is present exactly when `start + limit < length` and then equals `start + limit` |
| Admin.ListPage | convex/admin.ts:75-117 | the page is as long as `slice(start, start + limit)` of the filtered list sorted by createdAt descending, for any limit, and for a non-negative limit it is exactly that slice's projection; and totalCount is the number of matching users |
| Admin.ListPageMatches | convex/admin.ts:79-91 | every listed user matches the search (case-insensitively, in email or non-empty name) and the role filter |
| Admin.ListPageSorted | convex/admin.ts:94 | every page is ordered by createdAt, newest first |
| Admin.ListUsers | convex/admin.ts:56-119 | `listUsers` succeeds exactly for an admin caller, with cursor defaulting to 0 and limit to 50 |
| Admin.ListingMember | convex/admin.ts:79-94 | every user in the sorted listing is a matching user of the table |
| Admin.PageOf | convex/admin.ts:97-103 | every position of the listing lies on some page reached by following nextCursor from 0 |
| Admin.ListPageReachesEveryMatch | convex/admin.ts:79-103 | no matching user is dropped: there is a page listing them, and from cursor 0 every earlier page's nextCursor is the start of the page after it |
| Admin.CursorChain | convex/admin.ts:97-103 | while a page starts inside the listing, each earlier page's nextCursor is exactly the next page's start |
| Admin.RecentAbout | convex/admin.ts:151-156 | the user's log entries are read from the `by_user` index in descending order and cut at 50: the newest-inserted entry about the user first |
| Admin.RecentAboutNewest | convex/admin.ts:151-156 | the entry just appended about a user heads their detail log |
| Admin.GetUserDetail | convex/admin.ts:124-184 | succeeds exactly for an admin caller whose target id exists; otherwise "Unauthorized" or "User not found"; on success the user's projection, all their sessions, and the 50 most recently inserted log entries about them |
| Admin.RoleSet | convex/admin.ts:216-229 | the target's role becomes the new role with updatedAt == now and nothing else changes; one `user.role_changed` entry records the old role (missing shown as "user") and the new one; authId uniqueness is unchanged |
| Admin.UpdateUserRole | convex/admin.ts:189-233 | admin guard and "User not found"; success never demotes the caller, and the caller is still an admin afterwards |
| Admin.UpdateUserRoleOutcome | convex/admin.ts:211-214 | for an existing target, the call fails with "Cannot remove your own admin role" exactly when the caller targets themselves with a role other than "admin", and succeeds otherwise |
| Admin.Banned | convex/admin.ts:270-292 | the target's role becomes "banned", all of the target's sessions are deleted and nobody else's, and the `user.banned` entry records the reason and the prior session count; authId uniqueness is unchanged |
| Admin.BanUser | convex/admin.ts:238-296 | admin guard and "User not found"; success only for a target that is neither the caller nor an admin |
| Admin.BanUserOutcome | convex/admin.ts:260-268 | for an existing target: "Cannot ban yourself" exactly for the caller, "Cannot ban another admin" exactly for another admin, success exactly otherwise |
| Admin.Unbanned | convex/admin.ts:326-337 | the target's role becomes "user" with updatedAt == now, sessions are untouched, and one `user.unbanned` entry is appended; authId uniqueness is unchanged |
| Admin.UnbanUser | convex/admin.ts:301-341 | admin guard and "User not found"; success only for a target whose role is exactly "banned" |
| Admin.UnbanUserOutcome | convex/admin.ts:322-324 | for an existing target, "User is not banned" exactly when its role is not "banned", success exactly when it is |
| Admin.BanThenUnban | convex/admin.ts:270-329 | a successful ban followed by an unban always succeeds; it restores the user's row except for role "user" and the new updatedAt, while the sessions the ban deleted stay deleted |
| Admin.ByTimeDesc | convex/admin.ts:366-369 | the `by_time` index scanned in descending order is a permutation of the log sorted newest first |
| Admin.ByTimeDescTies | convex/admin.ts:366-369 | among entries with equal timestamps the descending scan yields the most recently inserted first |
| Admin.Window | convex/admin.ts:366-370 | the window holds min(500, n) entries of the log (as a sub-multiset), newest first; fewer than 500 log entries are newer than any entry in it, and no entry newer than one in it is left out |
| Admin.Narrowed | convex/admin.ts:372-379 | applying the action filter and then the userId filter, each only when non-empty, equals one combined filter |
| Admin.RecentEntries | convex/admin.ts:364-381 | at most 500 entries and at most `limit`; for any limit it is the prefix of the matching entries of the window that `slice(0, limit)` keeps, so a negative limit drops the last `-limit` matches; for a non-negative limit it is the first `limit` of them |
| Admin.RecentEntriesAdmissible | convex/admin.ts:366-381 | every returned entry is from the log, matches both filters, and has fewer than 500 newer entries in the log; the result is newest first |
| Admin.GetAuditLogs | convex/admin.ts:346-390 | `getAuditLogs` succeeds exactly for an admin caller, with limit defaulting to 100 |
| Auth.DisplayName | convex/auth.ts:101 | the derived name is absent exactly when first and last name are both blank or missing; otherwise it is the piece of "first last" with only white space before and after it and none at its own ends, i.e. `trim(first + " " + last)` |
| Auth.DisplayNameUnique | convex/auth.ts:101 | any non-empty piece of "first last" with only white space around it and none at its ends is the stored name |
| Auth.DisplayNameJoins | convex/auth.ts:101 | two names without surrounding whitespace are joined by one space |
| Auth.DisplayNameFirstOnly | convex/auth.ts:101 | a first name alone is kept as is, without the separating space |
| Auth.DisplayNameLastOnly | convex/auth.ts:101 | a last name alone is kept as is, without the separating space |
| Auth.GetAuthAccount | convex/auth.ts:12-20 | returns the record with the authId, or null exactly when there is none |
| Auth.CreateAuthAccount | convex/auth.ts:22-41 | appends exactly one user with role "user" and createdAt == updatedAt == now; uniqueness of authIds survives exactly when the authId was new |
| Auth.AppendUserUniqueness | convex/auth.ts:98 | appending a user keeps authIds unique exactly when its authId was not yet present |
| Auth.UpdateAuthAccount | convex/auth.ts:43-66 | returns null with the state unchanged when the authId is absent; otherwise only the supplied email/name/avatar and updatedAt change, role and createdAt kept, authIds stay unique, and the row's id is returned |
| Auth.RemoveAccount | convex/auth.ts:71-78 | removes exactly the row with the authId when present and is a no-op otherwise; ids and authIds stay distinct |
| Auth.DeleteAuthAccount | convex/auth.ts:68-80 | afterwards no row has the authId; when present exactly its row is removed, every other row survives and the table shrank by one; sessions and log untouched, ids and authIds stay distinct |
| Auth.DeleteAuthAccountIdempotent | convex/auth.ts:68-80 | deleting twice equals deleting once |
| Auth.OnUserCreated | convex/auth.ts:97-107 | `user.created` appends one user with the event's id and email, the derived name, the avatar and role "user"; uniqueness survives exactly when the id was new |
| Auth.OnUserUpdated | convex/auth.ts:108-121 | `user.updated` is a no-op for an unknown id; otherwise it overwrites only email, name, avatar and updatedAt, keeping role and createdAt; authIds stay unique |
| Auth.OnUserDeleted | convex/auth.ts:122-130 | `user.deleted` removes exactly the row with the id when present and is a no-op otherwise; sessions and log untouched, ids and authIds stay distinct |
| Auth.OnUserDeletedIdempotent | convex/auth.ts:122-130 | handling the same `user.deleted` event twice equals handling it once |
| Auth.HandleEvent | convex/auth.ts:96-131 | no webhook event touches sessions or the log, `user.created` never fails, distinct ids are kept, and from unique authIds only a `user.created` for a present id breaks uniqueness |
| Auth.DuplicateCreateBreaksLookups | convex/auth.ts:98 | a `user.created` event for an authId already present breaks uniqueness, and every later `.unique()` lookup of it fails |
| Workos.OnUserCreated | convex/workos.ts:21-31 | inserts exactly the user built from the event with role "user" and the trim-or-none name, with no warning; ids stay distinct, and authIds stay unique exactly when the id was new |
| Workos.OnUserUpdated | convex/workos.ts:33-50 | an unknown id leaves the state unchanged with the warning "User not found for update: <id>"; otherwise only email, name, avatar and updatedAt of that user change; ids and authIds stay distinct |
| Workos.OnUserDeleted | convex/workos.ts:52-64 | an unknown id leaves the state unchanged with the warning "User not found for deletion: <id>"; otherwise exactly that user is removed; ids and authIds stay distinct |
| Workos.AgreesWithAuth | convex/workos.ts:20-65 | apart from the warnings, each handler leaves the same state as its counterpart in `convex/auth.ts` |
| Seqs.Filter | convex/admin.ts:31-42 | `Array.prototype.filter` keeps exactly the elements satisfying the predicate and is no longer than its input |
| Seqs.FilterCountPermutation | convex/admin.ts:366-370 | the number of entries satisfying a predicate (such as "newer than e") is the same in the log and in any reordering of it, such as its `by_time` scan |
| Seqs.JsSlice | convex/admin.ts:98 | `slice(begin, end)` clamps both bounds to the array, counts a negative bound from the end, and yields the elements from the clamped begin up to the clamped end (none when end comes first); for `0 <= begin <= end` it is the plain sub-sequence |
| Seqs.Reverse | convex/admin.ts:155 | a descending index scan yields the rows in reverse insertion order |
| Seqs.FilterReverse | convex/admin.ts:155 | filtering a descending scan equals reversing the filtered table |
| Seqs.Take | convex/admin.ts:156 | `.take(n)` yields the first `n` rows, or all of them |
| Sorting.SortDesc | convex/admin.ts:94 | the sort returns a permutation of its input ordered by the key, largest first |
| Sorting.SortStable | convex/admin.ts:94 | the sort is stable: users with equal createdAt keep their relative order |
| Sorting.FilterSorted | convex/admin.ts:373-379 | filtering a list sorted newest first keeps it sorted |
| Sorting.SortedRank | convex/admin.ts:366-370 | in a list sorted newest first, at most i entries are strictly newer than the entry at position i |
| Text.ToLower | convex/admin.ts:80-84 | `toLowerCase` keeps the length and maps A-Z to a-z, leaving every other character alone |
| Text.IncludesIff | convex/admin.ts:83-84 | `includes` holds exactly when the term occurs at some position |
| Text.Trim | convex/auth.ts:101 | `trim` yields the empty string exactly for an all-whitespace input; otherwise the piece of the input with only white space before and after it and none at its own ends |
| Text.TrimUnique | convex/auth.ts:101 | any split of the input into white space, an infix without white space at its ends, and white space is the one `trim` returns |
| Text.Strip | convex/auth.ts:101 | removes the leading run of the given characters and the trailing run of what is left; the removed parts consist of those characters only |
| Text.StrippedIsFixed | convex/auth.ts:101 | `trim` leaves a string without surrounding whitespace unchanged |

## Left out

- `exportUserData` (`convex/users.ts:231-258`) is an action. It composes two queries through `runQuery` and serialises them with `JSON.stringify` and `toISOString`, which are outside the model.
- The UI, the session-check HTTP route, the middleware, the client SDK and `convex/http.ts` route wiring are presentation or calls into the identity provider, so they are not modelled.
- `Date.now()` is a parameter. A mutation that calls it more than once (for example `updatedAt` and the log timestamp, or the two cut-offs in `getStats`) gets one `now` for all of its calls.
- Admin.ListUsers: the cursor arrives as an already parsed offset (`Option<nat>`). `parseInt` on a malformed or negative string is not modelled, and `nextCursor` is the number, not its decimal string.
- Admin.ListUsers and Admin.GetAuditLogs: `limit` is an integer. A fractional limit, which `slice` would truncate, is not modelled.
- Text.ToLower: only ASCII letters are lowered. Unicode case mapping is not modelled.
- Admin.GetUserDetail: the log entries come from the `by_user` index in descending order. The model orders them by reverse insertion order, which is how the index orders equal keys. It does not order them by timestamp.
- Admin.GetAuditLogs: it returns the stored entries. The projection to `{id, action, userId, adminId, metadata, timestamp}` drops only the creation time, which the model does not carry.
- The `by_time` index breaks ties between equal timestamps by creation order. The model's descending scan puts later insertions first.
- The `console.warn` calls of `convex/workos.ts` are returned as a warning string. Logging itself is not modelled.
- Convex index internals, per-call transactional atomicity and concurrent callers are not modelled: each call is one atomic step.
- Audit `metadata` is typed per action (`Metadata`), not as arbitrary JSON. `updateProfile`'s `changes` list keeps the key order `name`, `avatarUrl` of `Object.keys`.

=== FILE: admin.dfy ===
/** The admin service: statistics, user listing, user detail, role changes,
    ban and unban, and the audit-log view. Every entry point first resolves
    the caller by the `adminAuthId` it is given and refuses unless that user
    has the role "admin". */
module Admin {

  import opened Wrappers
  import opened Seqs
  import opened Sorting
  import opened Text
  import opened Schema
  import Users
  import Auth

  /** Some user with that identity-provider id holds the role "admin". */
  predicate IsAdmin(users: seq<User>, adminAuthId: string) {
    exists i :: 0 <= i < |users| && users[i].authId == adminAuthId && users[i].role == Some(AdminRole)
  }

  /** The guard that opens every entry point: the position of the calling
      admin. */
  function RequireAdmin(users: seq<User>, adminAuthId: string): (r: Result<nat, Error>)
    ensures r.Ok? <==> IsAdmin(users, adminAuthId) && !DuplicatedAuthId(users, adminAuthId)
    ensures r.Ok? ==> r.value < |users| && users[r.value].authId == adminAuthId && users[r.value].role == Some(AdminRole)
    ensures !IsAdmin(users, adminAuthId) && !DuplicatedAuthId(users, adminAuthId) ==> r == Err(Unauthorized)
    ensures DuplicatedAuthId(users, adminAuthId) ==> r == Err(NotUnique)
  {
    var found :- FindByAuthId(users, adminAuthId);
    match found
    case None => Err(Unauthorized)
    case Some(i) => if users[i].role == Some(AdminRole) then Ok(i) else Err(Unauthorized)
  }

  /** The guard followed by `db.get(userId)`: the positions of the calling
      admin and of the target user. */
  function AdminTarget(users: seq<User>, adminAuthId: string, userId: nat): (r: Result<(nat, nat), Error>)
    ensures r.Ok? ==> IsAdmin(users, adminAuthId) && !DuplicatedAuthId(users, adminAuthId)
    ensures !IsAdmin(users, adminAuthId) && !DuplicatedAuthId(users, adminAuthId) ==> r == Err(Unauthorized)
    ensures DuplicatedAuthId(users, adminAuthId) ==> r == Err(NotUnique)
    ensures IsAdmin(users, adminAuthId) && !DuplicatedAuthId(users, adminAuthId) ==>
      (r == Err(UserNotFound) <==> forall i :: 0 <= i < |users| ==> users[i].id != userId)
    ensures r.Ok? ==>
      && r.value.0 < |users| && users[r.value.0].authId == adminAuthId && users[r.value.0].role == Some(AdminRole)
      && r.value.1 < |users| && users[r.value.1].id == userId
  {
    var a :- RequireAdmin(users, adminAuthId);
    match FindById(users, userId)
    case None => Err(UserNotFound)
    case Some(i) => Ok((a, i))
  }

  /** Document ids name at most one user. */
  lemma DocIdNamesOne(db: Db, i: nat, j: nat)
    requires Valid(db)
    requires i < |db.users| && j < |db.users| && db.users[i].id == db.users[j].id
    ensures i == j
  {
  }

  /** Under the document-id invariant, once the guard has passed, the
      target's lookup succeeds exactly when some user has that id, and then
      finds that user. */
  lemma AdminTargetFinds(db: Db, adminAuthId: string, i: nat)
    requires Valid(db)
    requires IsAdmin(db.users, adminAuthId) && !DuplicatedAuthId(db.users, adminAuthId)
    requires i < |db.users|
    ensures AdminTarget(db.users, adminAuthId, db.users[i].id).Ok?
    ensures AdminTarget(db.users, adminAuthId, db.users[i].id).value.1 == i
  {
    var r := AdminTarget(db.users, adminAuthId, db.users[i].id);
    assert r != Err(UserNotFound);
    DocIdNamesOne(db, i, r.value.1);
  }

  // ---------------------------------------------------------------- getStats

  const DayMs := 24 * 60 * 60 * 1000
  const WeekMs := 7 * 24 * 60 * 60 * 1000

  datatype Stats = Stats(totalUsers: nat, activeSessions: nat, newUsersThisWeek: nat, adminCount: nat)

  function ActiveAfter(t: int): Session -> bool {
    (s: Session) => s.lastActive > t
  }

  function CreatedAfter(t: int): User -> bool {
    (u: User) => u.createdAt > t
  }

  function HasRole(role: string): User -> bool {
    (u: User) => u.role == Some(role)
  }

  /** The figures `getStats` reports, counted over full table scans. */
  function Counts(db: Db, now: int): Stats {
    Stats(
      |db.users|,
      |Filter(db.sessions, ActiveAfter(now - DayMs))|,
      |Filter(db.users, CreatedAfter(now - WeekMs))|,
      |Filter(db.users, HasRole(AdminRole))|)
  }

  /** `getStats`: sessions active in the last day, users created in the
      last week and admins, relative to `now`. */
  function GetStats(db: Db, adminAuthId: string, now: int): (r: Result<Stats, Error>)
    ensures r.Ok? <==> IsAdmin(db.users, adminAuthId) && !DuplicatedAuthId(db.users, adminAuthId)
    ensures !IsAdmin(db.users, adminAuthId) && !DuplicatedAuthId(db.users, adminAuthId) ==> r == Err(Unauthorized)
    ensures r.Ok? ==> r.value.totalUsers == |db.users|
    ensures r.Ok? ==> r.value.activeSessions <= |db.sessions|
    ensures r.Ok? ==> r.value.newUsersThisWeek <= r.value.totalUsers
    ensures r.Ok? ==> 1 <= r.value.adminCount <= r.value.totalUsers
    ensures r.Ok? ==> r.value.activeSessions == |Filter(db.sessions, ActiveAfter(now - DayMs))|
    ensures r.Ok? ==> r.value.newUsersThisWeek == |Filter(db.users, CreatedAfter(now - WeekMs))|
    ensures r.Ok? ==> r.value.adminCount == |Filter(db.users, HasRole(AdminRole))|
  {
    var a :- RequireAdmin(db.users, adminAuthId);
    assert db.users[a] in Filter(db.users, HasRole(AdminRole));
    Ok(Counts(db, now))
  }

  /** A session created at `now` counts as active in statistics taken at
      that time, and changes no other figure. */
  lemma StatsCountNewSession(
    db: Db, userId: string, deviceInfo: string, ipAddress: Option<string>, now: int)
    ensures var db' := Users.CreateSession(db, userId, deviceInfo, ipAddress, now).0;
      Counts(db', now) == Counts(db, now).(activeSessions := Counts(db, now).activeSessions + 1)
  {
    var (db', id) := Users.CreateSession(db, userId, deviceInfo, ipAddress, now);
    var s := Session(id, userId, deviceInfo, ipAddress, now, now);
    assert db'.sessions == db.sessions + [s];
    FilterAppend(db.sessions, [s], ActiveAfter(now - DayMs));
    assert [s][1..] == [];
  }

  /** A user the identity provider creates at `now` counts as a user and as
      a new user, not as an admin, and leaves a passing guard passing. */
  lemma StatsCountNewUser(
    db: Db, adminAuthId: string, authId: string, email: string, name: Option<string>, avatarUrl: Option<string>, now: int)
    requires authId != adminAuthId
    ensures var db' := Auth.CreateAuthAccount(db, authId, email, name, avatarUrl, now).0;
      && Counts(db', now)
         == Counts(db, now).(totalUsers := |db.users| + 1, newUsersThisWeek := Counts(db, now).newUsersThisWeek + 1)
      && (GetStats(db, adminAuthId, now).Ok? ==> GetStats(db', adminAuthId, now) == Ok(Counts(db', now)))
  {
    var (db', id) := Auth.CreateAuthAccount(db, authId, email, name, avatarUrl, now);
    var u := User(id, authId, email, name, avatarUrl, Some(UserRole), now, now);
    assert db'.users == db.users + [u] by {
      assert db'.users == db'.users[..|db.users|] + [db'.users[|db.users|]];
    }
    FilterAppend(db.users, [u], CreatedAfter(now - WeekMs));
    FilterAppend(db.users, [u], HasRole(AdminRole));
    assert [u][1..] == [];
    if GetStats(db, adminAuthId, now).Ok? {
      AdminSurvivesAppend(db.users, u, adminAuthId);
    }
  }

  /** Appending a user with another identity-provider id keeps the guard
      passing. */
  lemma AdminSurvivesAppend(users: seq<User>, u: User, adminAuthId: string)
    requires IsAdmin(users, adminAuthId) && !DuplicatedAuthId(users, adminAuthId)
    requires u.authId != adminAuthId
    ensures IsAdmin(users + [u], adminAuthId) && !DuplicatedAuthId(users + [u], adminAuthId)
  {
    var users' := users + [u];
    var a :| 0 <= a < |users| && users[a].authId == adminAuthId && users[a].role == Some(AdminRole);
    assert users'[a] == users[a];
  }

  // --------------------------------------------------------------- listUsers

  function CreatedAt(u: User): int {
    u.createdAt
  }

  /** The search filter: the lower-cased term occurs in the lower-cased
      email, or in the lower-cased name when there is a non-empty one. */
  predicate MatchesSearch(u: User, search: string) {
    var term := ToLower(search);
    || Includes(ToLower(u.email), term)
    || (u.name.Some? && u.name.value != "" && Includes(ToLower(u.name.value), term))
  }

  /** A user passes both of `listUsers`' filters; an absent or empty filter
      passes everyone. */
  predicate Matches(u: User, search: Option<string>, role: Option<string>) {
    && (search.Some? && search.value != "" ==> MatchesSearch(u, search.value))
    && (role.Some? && role.value != "" ==> u.role == role)
  }

  function MatchFilter(search: Option<string>, role: Option<string>): User -> bool {
    (u: User) => Matches(u, search, role)
  }

  function SearchFilter(search: string): User -> bool {
    (u: User) => MatchesSearch(u, search)
  }

  function RoleFilter(role: string): User -> bool {
    (u: User) => u.role == Some(role)
  }

  /** The search filter, then the role filter, each applied only when its
      argument is a non-empty string. */
  function Filtered(users: seq<User>, search: Option<string>, role: Option<string>): (r: seq<User>)
    ensures r == Filter(users, MatchFilter(search, role))
  {
    var bySearch := search.Some? && search.value != "";
    var byRole := role.Some? && role.value != "";
    var m := MatchFilter(search, role);
    if bySearch && byRole then
      FilterFilter(users, SearchFilter(search.value), RoleFilter(role.value), m);
      Filter(Filter(users, SearchFilter(search.value)), RoleFilter(role.value))
    else if bySearch then
      FilterExt(users, SearchFilter(search.value), m);
      Filter(users, SearchFilter(search.value))
    else if byRole then
      FilterExt(users, RoleFilter(role.value), m);
      Filter(users, RoleFilter(role.value))
    else
      FilterAll(users, m);
      users
  }

  /** The whole listing that `listUsers` pages through: the matching users,
      newest first, equals in table order. */
  function Listing(users: seq<User>, search: Option<string>, role: Option<string>): seq<User> {
    SortDesc(Filter(users, MatchFilter(search, role)), CreatedAt)
  }

  datatype UserPage = UserPage(users: seq<Profile>, nextCursor: Option<int>, totalCount: nat)

  /** The page of `sorted` from offset `start` that `slice(start, start +
      limit)` cuts, with the cursor of the page after it. */
  function Paginate(sorted: seq<User>, start: nat, limit: int): (r: UserPage)
    ensures r.totalCount == |sorted|
    ensures limit >= 0 ==> r.users == Map(sorted[Min(start, |sorted|)..Min(start + limit, |sorted|)], ProfileOf)
    ensures limit >= 0 ==> |r.users| <= limit
    ensures |r.users| == |JsSlice(sorted, start, start + limit)|
    ensures forall k :: 0 <= k < |r.users| ==>
      ClampIndex(start, |sorted|) + k < |sorted| && r.users[k] == ProfileOf(sorted[ClampIndex(start, |sorted|) + k])
    ensures r.nextCursor.Some? <==> start + limit < |sorted|
    ensures r.nextCursor.Some? ==> r.nextCursor.value == start + limit
  {
    var page := JsSlice(sorted, start, start + limit);
    UserPage(Map(page, ProfileOf), if start + limit < |sorted| then Some(start + limit) else None, |sorted|)
  }

  /** What `listUsers` returns once the guard has passed: the filtered
      users sorted by creation time, newest first, and the page of `limit`
      of them from offset `start`. */
  function ListPage(users: seq<User>, search: Option<string>, role: Option<string>, start: nat, limit: int)
    : (r: UserPage)
    ensures r.totalCount == |Filter(users, MatchFilter(search, role))|
    ensures limit >= 0 ==> |r.users| <= limit
    ensures |r.users| == |JsSlice(Listing(users, search, role), start, start + limit)|
    ensures limit >= 0 ==>
      var listing := Listing(users, search, role);
      r.users == Map(listing[Min(start, |listing|)..Min(start + limit, |listing|)], ProfileOf)
    ensures r.nextCursor.Some? <==> start + limit < r.totalCount
    ensures r.nextCursor.Some? ==> r.nextCursor.value == start + limit
  {
    Paginate(SortDesc(Filtered(users, search, role), CreatedAt), start, limit)
  }

  lemma ListPageIsPaginate(users: seq<User>, search: Option<string>, role: Option<string>, start: nat, limit: int)
    ensures ListPage(users, search, role, start, limit) == Paginate(Listing(users, search, role), start, limit)
  {
  }

  /** Every user on a page passes the filters. */
  lemma ListPageMatches(users: seq<User>, search: Option<string>, role: Option<string>, start: nat, limit: int, k: nat)
    requires k < |ListPage(users, search, role, start, limit).users|
    ensures exists j :: (
      && 0 <= j < |users| && Matches(users[j], search, role)
      && ListPage(users, search, role, start, limit).users[k] == ProfileOf(users[j]))
  {
    var listing := Listing(users, search, role);
    ListPageIsPaginate(users, search, role, start, limit);
    var c := ClampIndex(start, |listing|) + k;
    assert ListPage(users, search, role, start, limit).users[k] == ProfileOf(listing[c]);
    ListingMember(users, search, role, c);
    var i :| 0 <= i < |users| && Matches(users[i], search, role) && users[i] == listing[c];
  }

  /** A page is ordered by creation time, newest first. */
  lemma ListPageSorted(users: seq<User>, search: Option<string>, role: Option<string>, start: nat, limit: int)
    ensures var page := ListPage(users, search, role, start, limit).users;
      forall k, l :: 0 <= k < l < |page| ==> page[k].createdAt >= page[l].createdAt
  {
    ListPageIsPaginate(users, search, role, start, limit);
    PaginateSorted(Listing(users, search, role), start, limit);
  }

  lemma PaginateSorted(sorted: seq<User>, start: nat, limit: int)
    requires SortedDesc(sorted, CreatedAt)
    ensures var page := Paginate(sorted, start, limit).users;
      forall k, l :: 0 <= k < l < |page| ==> page[k].createdAt >= page[l].createdAt
  {
    var page := Paginate(sorted, start, limit).users;
    var b := ClampIndex(start, |sorted|);
    forall k, l | 0 <= k < l < |page|
      ensures page[k].createdAt >= page[l].createdAt
    {
      assert CreatedAt(sorted[b + k]) >= CreatedAt(sorted[b + l]);
    }
  }

  /** `listUsers`: the guard, then the page; `limit` defaults to 50 and
      `cursor` to 0. */
  function ListUsers(
    db: Db, adminAuthId: string, search: Option<string>, role: Option<string>,
    cursor: Option<nat>, limit: Option<int>)
    : (r: Result<UserPage, Error>)
    ensures r.Ok? <==> IsAdmin(db.users, adminAuthId) && !DuplicatedAuthId(db.users, adminAuthId)
    ensures !IsAdmin(db.users, adminAuthId) && !DuplicatedAuthId(db.users, adminAuthId) ==> r == Err(Unauthorized)
    ensures r.Ok? ==> r.value == ListPage(db.users, search, role, cursor.GetOr(0), limit.GetOr(50))
  {
    var _ :- RequireAdmin(db.users, adminAuthId);
    Ok(ListPage(db.users, search, role, cursor.GetOr(0), limit.GetOr(50)))
  }

  /** Every entry of the listing is a matching user. */
  lemma ListingMember(users: seq<User>, search: Option<string>, role: Option<string>, j: nat)
    requires j < |Listing(users, search, role)|
    ensures exists i :: 0 <= i < |users| && Matches(users[i], search, role) && users[i] == Listing(users, search, role)[j]
  {
    var matching := Filter(users, MatchFilter(search, role));
    var listing := Listing(users, search, role);
    assert listing[j] in multiset(matching);
    var k :| 0 <= k < |matching| && matching[k] == listing[j];
    assert matching[k] in users;
  }

  /** The cursor reached from the first page after following `page`
      next-page cursors. */
  function Cursor(page: nat, limit: nat): nat {
    if page == 0 then 0 else Cursor(page - 1, limit) + limit
  }

  /** The page, of `limit` entries each, that position `i` falls on. */
  lemma {:induction false} PageOf(i: nat, limit: nat) returns (page: nat)
    requires limit > 0
    ensures Cursor(page, limit) <= i < Cursor(page, limit) + limit
    decreases i
  {
    if i < limit {
      page := 0;
    } else {
      var p := PageOf(i - limit, limit);
      page := p + 1;
    }
  }

  /** Cursors grow with the page number. */
  lemma {:induction false} CursorMonotone(p: nat, q: nat, limit: nat)
    requires p <= q
    ensures Cursor(p, limit) <= Cursor(q, limit)
    decreases q
  {
    if p < q {
      CursorMonotone(p, q - 1, limit);
    }
  }

  /** Up to a page that still starts inside the listing, each page's
      `nextCursor` is the start of the page after it: starting from cursor 0
      and following `nextCursor` visits the pages in order. */
  lemma CursorChain(users: seq<User>, search: Option<string>, role: Option<string>, limit: nat, page: nat)
    requires Cursor(page, limit) < |Filter(users, MatchFilter(search, role))|
    ensures forall p: nat :: p < page ==>
      ListPage(users, search, role, Cursor(p, limit), limit).nextCursor == Some(Cursor(p + 1, limit))
  {
    forall p: nat | p < page
      ensures ListPage(users, search, role, Cursor(p, limit), limit).nextCursor == Some(Cursor(p + 1, limit))
    {
      CursorMonotone(p + 1, page, limit);
    }
  }

  /** Following the cursors reaches every matching user: with a positive
      page size, each of them is on some page, and every page before it
      hands out the cursor of the next one. */
  lemma ListPageReachesEveryMatch(users: seq<User>, search: Option<string>, role: Option<string>, limit: nat, u: User)
    requires limit > 0
    requires u in users && Matches(u, search, role)
    ensures exists page: nat ::
      && ProfileOf(u) in ListPage(users, search, role, Cursor(page, limit), limit).users
      && forall p: nat :: p < page ==>
           ListPage(users, search, role, Cursor(p, limit), limit).nextCursor == Some(Cursor(p + 1, limit))
  {
    var listing := Listing(users, search, role);
    var matching := Filter(users, MatchFilter(search, role));
    assert u in matching;
    assert u in multiset(listing);
    var i :| 0 <= i < |listing| && listing[i] == u;
    var page := PageOf(i, limit);
    OnPage(users, search, role, Cursor(page, limit), limit, i);
    CursorChain(users, search, role, limit, page);
  }

  /** The entry at position `i` of the listing is on the page that starts
      at most `limit` before it. */
  lemma OnPage(users: seq<User>, search: Option<string>, role: Option<string>, start: nat, limit: nat, i: nat)
    requires start <= i < start + limit && i < |Listing(users, search, role)|
    ensures ProfileOf(Listing(users, search, role)[i]) in ListPage(users, search, role, start, limit).users
  {
    ListPageIsPaginate(users, search, role, start, limit);
    PaginateContains(Listing(users, search, role), start, limit, i);
  }

  lemma PaginateContains(sorted: seq<User>, start: nat, limit: nat, i: nat)
    requires start <= i < start + limit && i < |sorted|
    ensures ProfileOf(sorted[i]) in Paginate(sorted, start, limit).users
  {
    var r := Paginate(sorted, start, limit);
    assert ClampIndex(start, |sorted|) == start;
    assert i - start < |r.users|;
    assert r.users[i - start] == ProfileOf(sorted[i]);
  }

  // ----------------------------------------------------------- getUserDetail

  /** An audit entry as `getUserDetail` lists it. */
  datatype LogView = LogView(id: nat, action: string, metadata: Metadata, timestamp: int)

  function LogViewOf(e: AuditEntry): LogView {
    LogView(e.id, e.action, e.metadata, e.timestamp)
  }

  datatype UserDetail = UserDetail(user: UserView, sessions: seq<SessionView>, auditLogs: seq<LogView>)

  function AboutUser(authId: string): AuditEntry -> bool {
    (e: AuditEntry) => e.userId == Some(authId)
  }

  const DetailLogLimit := 50

  /** The `by_user` index scanned in descending order and cut at 50: the
      entries about `authId`, most recently inserted first. */
  function RecentAbout(logs: seq<AuditEntry>, authId: string): (r: seq<LogView>)
    ensures var about := Filter(logs, AboutUser(authId));
      && |r| == Min(DetailLogLimit, |about|)
      && forall k :: 0 <= k < |r| ==> r[k] == LogViewOf(about[|about| - 1 - k])
  {
    Map(Take(Reverse(Filter(logs, AboutUser(authId))), DetailLogLimit), LogViewOf)
  }

  /** Logging one more entry about a user puts it first in their detail
      view. */
  lemma RecentAboutNewest(logs: seq<AuditEntry>, e: AuditEntry, authId: string)
    requires e.userId == Some(authId)
    ensures |RecentAbout(logs + [e], authId)| > 0 && RecentAbout(logs + [e], authId)[0] == LogViewOf(e)
  {
    FilterAppend(logs, [e], AboutUser(authId));
    assert [e][1..] == [];
  }

  /** `getUserDetail`: the user with document id `userId`, all of their
      sessions, and their recent audit entries. */
  function GetUserDetail(db: Db, adminAuthId: string, userId: nat): (r: Result<UserDetail, Error>)
    ensures !IsAdmin(db.users, adminAuthId) && !DuplicatedAuthId(db.users, adminAuthId) ==> r == Err(Unauthorized)
    ensures IsAdmin(db.users, adminAuthId) && !DuplicatedAuthId(db.users, adminAuthId) ==>
      (r == Err(UserNotFound) <==> forall i :: 0 <= i < |db.users| ==> db.users[i].id != userId)
    ensures r.Ok? <==>
      && IsAdmin(db.users, adminAuthId) && !DuplicatedAuthId(db.users, adminAuthId)
      && exists i :: 0 <= i < |db.users| && db.users[i].id == userId
    ensures r.Ok? ==> IsAdmin(db.users, adminAuthId)
    ensures r.Ok? ==> exists i :: (
      && 0 <= i < |db.users| && db.users[i].id == userId
      && r.value.user == UserViewOf(db.users[i])
      && r.value.sessions == Map(SessionsOf(db.sessions, db.users[i].authId), SessionViewOf)
      && r.value.auditLogs == RecentAbout(db.auditLogs, db.users[i].authId))
  {
    var (_, i) :- AdminTarget(db.users, adminAuthId, userId);
    var u := db.users[i];
    Ok(UserDetail(UserViewOf(u), Map(SessionsOf(db.sessions, u.authId), SessionViewOf), RecentAbout(db.auditLogs, u.authId)))
  }

  // ---------------------------------------------------------- updateUserRole

  /** The patch and the audit entry of a role change. */
  function RoleSet(db: Db, i: nat, adminAuthId: string, newRole: string, now: int): (r: Db)
    requires i < |db.users|
    ensures r.users == db.users[i := db.users[i].(role := Some(newRole), updatedAt := now)]
    ensures r.sessions == db.sessions && AppendsOne(db.auditLogs, r.auditLogs)
    ensures Newest(r.auditLogs)
         == AuditEntry(db.nextId, RoleChanged, Some(db.users[i].authId), Some(adminAuthId),
                       RoleChange(RoleOf(db.users[i]), newRole), now)
    ensures Valid(db) ==> Valid(r)
    ensures UniqueAuthIds(r.users) <==> UniqueAuthIds(db.users)
  {
    var u := db.users[i];
    var patched := PutUser(db, i, u.(role := Some(newRole), updatedAt := now));
    AppendLog(patched, RoleChanged, Some(u.authId), Some(adminAuthId), RoleChange(RoleOf(u), newRole), now)
  }

  /** `updateUserRole`: sets the role of the user with document id
      `userId` to any string; an admin may not give themself a role other
      than "admin". */
  function UpdateUserRole(db: Db, adminAuthId: string, userId: nat, newRole: string, now: int)
    : (r: Result<Db, Error>)
    ensures !IsAdmin(db.users, adminAuthId) && !DuplicatedAuthId(db.users, adminAuthId) ==> r == Err(Unauthorized)
    ensures IsAdmin(db.users, adminAuthId) && !DuplicatedAuthId(db.users, adminAuthId) ==>
      (r == Err(UserNotFound) <==> forall i :: 0 <= i < |db.users| ==> db.users[i].id != userId)
    ensures r.Ok? ==> exists i :: (
      && 0 <= i < |db.users| && db.users[i].id == userId
      && !(db.users[i].authId == adminAuthId && newRole != AdminRole)
      && r.value == RoleSet(db, i, adminAuthId, newRole, now))
    ensures r.Ok? ==> IsAdmin(r.value.users, adminAuthId)
  {
    var (a, i) :- AdminTarget(db.users, adminAuthId, userId);
    var u := db.users[i];
    if u.authId == adminAuthId && newRole != AdminRole then
      Err(CannotRemoveOwnAdmin)
    else
      var r := RoleSet(db, i, adminAuthId, newRole, now);
      assert r.users[a].authId == adminAuthId && r.users[a].role == Some(AdminRole);
      Ok(r)
  }

  /** Under the document-id invariant, once the guard has passed, the
      outcome of a role change is decided by the self-demotion rule. */
  lemma UpdateUserRoleOutcome(db: Db, adminAuthId: string, i: nat, newRole: string, now: int)
    requires Valid(db)
    requires IsAdmin(db.users, adminAuthId) && !DuplicatedAuthId(db.users, adminAuthId)
    requires i < |db.users|
    ensures var r := UpdateUserRole(db, adminAuthId, db.users[i].id, newRole, now);
      && (r == Err(CannotRemoveOwnAdmin) <==> db.users[i].authId == adminAuthId && newRole != AdminRole)
      && (r.Ok? <==> !(db.users[i].authId == adminAuthId && newRole != AdminRole))
      && (r.Ok? ==> r.value == RoleSet(db, i, adminAuthId, newRole, now))
  {
    AdminTargetFinds(db, adminAuthId, i);
  }

  // ----------------------------------------------------------------- banUser

  /** The patch, the session deletions and the audit entry of a ban. */
  function Banned(db: Db, i: nat, adminAuthId: string, reason: Option<string>, now: int): (r: Db)
    requires i < |db.users|
    ensures r.users == db.users[i := db.users[i].(role := Some(BannedRole), updatedAt := now)]
    ensures SessionsOf(r.sessions, db.users[i].authId) == []
    ensures forall other :: other != db.users[i].authId ==> SessionsOf(r.sessions, other) == SessionsOf(db.sessions, other)
    ensures |r.sessions| == |db.sessions| - |SessionsOf(db.sessions, db.users[i].authId)|
    ensures AppendsOne(db.auditLogs, r.auditLogs)
    ensures Newest(r.auditLogs)
         == AuditEntry(db.nextId, UserBanned, Some(db.users[i].authId), Some(adminAuthId),
                       BanDetails(reason, |SessionsOf(db.sessions, db.users[i].authId)|), now)
    ensures Valid(db) ==> Valid(r)
    ensures UniqueAuthIds(r.users) <==> UniqueAuthIds(db.users)
  {
    var u := db.users[i];
    var patched := PutUser(db, i, u.(role := Some(BannedRole), updatedAt := now));
    var revoked := |SessionsOf(db.sessions, u.authId)|;
    DeleteSessionsOfFrame(db.sessions, u.authId);
    var cleared := DeleteSessionsOf(patched, u.authId);
    AppendLog(cleared, UserBanned, Some(u.authId), Some(adminAuthId), BanDetails(reason, revoked), now)
  }

  /** `banUser`: sets the role to "banned" and deletes every session of
      the user. An admin can ban neither themself nor another admin. */
  function BanUser(db: Db, adminAuthId: string, userId: nat, reason: Option<string>, now: int)
    : (r: Result<Db, Error>)
    ensures !IsAdmin(db.users, adminAuthId) && !DuplicatedAuthId(db.users, adminAuthId) ==> r == Err(Unauthorized)
    ensures IsAdmin(db.users, adminAuthId) && !DuplicatedAuthId(db.users, adminAuthId) ==>
      (r == Err(UserNotFound) <==> forall i :: 0 <= i < |db.users| ==> db.users[i].id != userId)
    ensures r.Ok? ==> exists i :: (
      && 0 <= i < |db.users| && db.users[i].id == userId
      && db.users[i].authId != adminAuthId && db.users[i].role != Some(AdminRole)
      && r.value == Banned(db, i, adminAuthId, reason, now))
    ensures r.Ok? ==> IsAdmin(r.value.users, adminAuthId)
  {
    var (a, i) :- AdminTarget(db.users, adminAuthId, userId);
    var u := db.users[i];
    if u.authId == adminAuthId then Err(CannotBanSelf)
    else if u.role == Some(AdminRole) then Err(CannotBanAdmin)
    else
      var r := Banned(db, i, adminAuthId, reason, now);
      assert r.users[a] == db.users[a];
      Ok(r)
  }

  /** Under the document-id invariant, once the guard has passed, the
      outcome of a ban is decided by who the target is. */
  lemma BanUserOutcome(db: Db, adminAuthId: string, i: nat, reason: Option<string>, now: int)
    requires Valid(db)
    requires IsAdmin(db.users, adminAuthId) && !DuplicatedAuthId(db.users, adminAuthId)
    requires i < |db.users|
    ensures var r := BanUser(db, adminAuthId, db.users[i].id, reason, now);
      && (r == Err(CannotBanSelf) <==> db.users[i].authId == adminAuthId)
      && (r == Err(CannotBanAdmin) <==> db.users[i].authId != adminAuthId && db.users[i].role == Some(AdminRole))
      && (r.Ok? <==> db.users[i].authId != adminAuthId && db.users[i].role != Some(AdminRole))
      && (r.Ok? ==> r.value == Banned(db, i, adminAuthId, reason, now))
  {
    AdminTargetFinds(db, adminAuthId, i);
  }

  // --------------------------------------------------------------- unbanUser

  /** The patch and the audit entry of an unban. */
  function Unbanned(db: Db, i: nat, adminAuthId: string, now: int): (r: Db)
    requires i < |db.users|
    ensures r.users == db.users[i := db.users[i].(role := Some(UserRole), updatedAt := now)]
    ensures r.sessions == db.sessions && AppendsOne(db.auditLogs, r.auditLogs)
    ensures Newest(r.auditLogs)
         == AuditEntry(db.nextId, UserUnbanned, Some(db.users[i].authId), Some(adminAuthId), NoMetadata, now)
    ensures Valid(db) ==> Valid(r)
    ensures UniqueAuthIds(r.users) <==> UniqueAuthIds(db.users)
  {
    var u := db.users[i];
    var patched := PutUser(db, i, u.(role := Some(UserRole), updatedAt := now));
    AppendLog(patched, UserUnbanned, Some(u.authId), Some(adminAuthId), NoMetadata, now)
  }

  /** `unbanUser`: a banned user gets the role "user" back. */
  function UnbanUser(db: Db, adminAuthId: string, userId: nat, now: int): (r: Result<Db, Error>)
    ensures !IsAdmin(db.users, adminAuthId) && !DuplicatedAuthId(db.users, adminAuthId) ==> r == Err(Unauthorized)
    ensures IsAdmin(db.users, adminAuthId) && !DuplicatedAuthId(db.users, adminAuthId) ==>
      (r == Err(UserNotFound) <==> forall i :: 0 <= i < |db.users| ==> db.users[i].id != userId)
    ensures r.Ok? ==> exists i :: (
      && 0 <= i < |db.users| && db.users[i].id == userId && db.users[i].role == Some(BannedRole)
      && r.value == Unbanned(db, i, adminAuthId, now))
    ensures r.Ok? ==> IsAdmin(r.value.users, adminAuthId)
  {
    var (a, i) :- AdminTarget(db.users, adminAuthId, userId);
    var u := db.users[i];
    if u.role != Some(BannedRole) then Err(NotBanned)
    else
      var r := Unbanned(db, i, adminAuthId, now);
      assert r.users[a] == db.users[a];
      Ok(r)
  }

  /** Under the document-id invariant, once the guard has passed, an unban
      succeeds exactly on a banned user. */
  lemma UnbanUserOutcome(db: Db, adminAuthId: string, i: nat, now: int)
    requires Valid(db)
    requires IsAdmin(db.users, adminAuthId) && !DuplicatedAuthId(db.users, adminAuthId)
    requires i < |db.users|
    ensures var r := UnbanUser(db, adminAuthId, db.users[i].id, now);
      && (r == Err(NotBanned) <==> db.users[i].role != Some(BannedRole))
      && (r.Ok? <==> db.users[i].role == Some(BannedRole))
      && (r.Ok? ==> r.value == Unbanned(db, i, adminAuthId, now))
  {
    AdminTargetFinds(db, adminAuthId, i);
  }

  /** A patch that keeps every identity-provider id keeps the guard's
      duplicate check as it was. */
  lemma PatchKeepsDuplicates(users: seq<User>, i: nat, u: User, authId: string)
    requires i < |users| && u.authId == users[i].authId
    ensures DuplicatedAuthId(users[i := u], authId) == DuplicatedAuthId(users, authId)
  {
    var users' := users[i := u];
    assert forall j :: 0 <= j < |users| ==> users'[j].authId == users[j].authId;
  }

  /** Unbanning a user just banned gives them the role "user" again and
      leaves their sessions deleted. */
  lemma BanThenUnban(db: Db, adminAuthId: string, userId: nat, reason: Option<string>, now: int, later: int)
    requires Valid(db)
    requires BanUser(db, adminAuthId, userId, reason, now).Ok?
    ensures var banned := BanUser(db, adminAuthId, userId, reason, now).value;
      var r := UnbanUser(banned, adminAuthId, userId, later);
      && r.Ok?
      && exists i :: (
        && 0 <= i < |db.users| && db.users[i].id == userId
        && r.value.users == db.users[i := db.users[i].(role := Some(UserRole), updatedAt := later)]
        && SessionsOf(r.value.sessions, db.users[i].authId) == [])
  {
    var banned := BanUser(db, adminAuthId, userId, reason, now).value;
    var i :| 0 <= i < |db.users| && db.users[i].id == userId
      && db.users[i].authId != adminAuthId && db.users[i].role != Some(AdminRole)
      && banned == Banned(db, i, adminAuthId, reason, now);
    var u := db.users[i];
    PatchKeepsDuplicates(db.users, i, u.(role := Some(BannedRole), updatedAt := now), adminAuthId);
    UnbanUserOutcome(banned, adminAuthId, i, later);
    var r := Unbanned(banned, i, adminAuthId, later);
    var b := u.(role := Some(BannedRole), updatedAt := now);
    assert banned.users == db.users[i := b];
    assert b.(role := Some(UserRole), updatedAt := later) == u.(role := Some(UserRole), updatedAt := later);
    UpdateTwice(db.users, i, b, u.(role := Some(UserRole), updatedAt := later));
  }

  // ------------------------------------------------------------ getAuditLogs

  /** How many entries of the `by_time` scan `getAuditLogs` reads before it
      filters. */
  const AuditWindow := 500

  function Timestamp(e: AuditEntry): int {
    e.timestamp
  }

  /** A descending scan of the `by_time` index: newest timestamp first,
      equal timestamps most recently inserted first. */
  function ByTimeDesc(logs: seq<AuditEntry>): (r: seq<AuditEntry>)
    ensures multiset(r) == multiset(logs)
    ensures SortedDesc(r, Timestamp)
  {
    SortDesc(Reverse(logs), Timestamp)
  }

  /** Among entries with the same timestamp, the scan yields the most
      recently inserted first. */
  lemma ByTimeDescTies(logs: seq<AuditEntry>, t: int)
    ensures Filter(ByTimeDesc(logs), KeyIs(Timestamp, t)) == Reverse(Filter(logs, KeyIs(Timestamp, t)))
  {
    SortStable(Reverse(logs), Timestamp, t);
    FilterReverse(logs, KeyIs(Timestamp, t));
  }

  /** The first 500 entries of that scan: the newest, and nothing newer
      left behind. */
  function Window(logs: seq<AuditEntry>): (r: seq<AuditEntry>)
    ensures |r| == Min(AuditWindow, |logs|)
    ensures SortedDesc(r, Timestamp)
    ensures forall e :: e in r ==> e in logs
    ensures forall e :: e in r ==> |Filter(logs, KeyAbove(Timestamp, e.timestamp))| < AuditWindow
    ensures multiset(r) <= multiset(logs)
    ensures forall e, x :: e in r && x in logs && x.timestamp > e.timestamp ==> x in r
  {
    var r := Take(ByTimeDesc(logs), AuditWindow);
    WindowFacts(logs);
    WindowIsPrefix(logs);
    r
  }

  /** The window is a sub-multiset of the log, and no entry newer than one
      inside it is left outside. */
  lemma WindowIsPrefix(logs: seq<AuditEntry>)
    ensures var r := Take(ByTimeDesc(logs), AuditWindow);
      && multiset(r) <= multiset(logs)
      && forall e, x :: e in r && x in logs && x.timestamp > e.timestamp ==> x in r
  {
    var sorted := ByTimeDesc(logs);
    var n := Min(AuditWindow, |sorted|);
    assert Take(sorted, AuditWindow) == sorted[..n];
    PrefixSubMultiset(sorted, n);
    SortedPrefixClosed(sorted, Timestamp, n);
    forall x | x in logs ensures x in sorted {
      assert x in multiset(sorted);
    }
  }

  lemma WindowFacts(logs: seq<AuditEntry>)
    ensures var r := Take(ByTimeDesc(logs), AuditWindow);
      forall e :: e in r ==> e in logs && |Filter(logs, KeyAbove(Timestamp, e.timestamp))| < AuditWindow
  {
    var sorted := ByTimeDesc(logs);
    var r := Take(sorted, AuditWindow);
    forall e | e in r
      ensures e in logs && |Filter(logs, KeyAbove(Timestamp, e.timestamp))| < AuditWindow
    {
      var k :| 0 <= k < |r| && r[k] == e;
      assert sorted[k] == e;
      assert e in multiset(sorted);
      SortedRank(sorted, Timestamp, k);
      FilterCountPermutation(sorted, logs, KeyAbove(Timestamp, e.timestamp));
    }
  }

  /** An entry passes `getAuditLogs`' filters; an absent or empty filter
      passes everything. */
  predicate EntryMatches(e: AuditEntry, action: Option<string>, userId: Option<string>) {
    && (action.Some? && action.value != "" ==> e.action == action.value)
    && (userId.Some? && userId.value != "" ==> e.userId == userId)
  }

  function EntryFilter(action: Option<string>, userId: Option<string>): AuditEntry -> bool {
    (e: AuditEntry) => EntryMatches(e, action, userId)
  }

  function ActionIs(action: string): AuditEntry -> bool {
    (e: AuditEntry) => e.action == action
  }

  function SubjectIs(userId: string): AuditEntry -> bool {
    (e: AuditEntry) => e.userId == Some(userId)
  }

  /** The action filter, then the subject filter, each applied only when
      its argument is a non-empty string. */
  function Narrowed(logs: seq<AuditEntry>, action: Option<string>, userId: Option<string>): (r: seq<AuditEntry>)
    ensures r == Filter(logs, EntryFilter(action, userId))
  {
    var byAction := action.Some? && action.value != "";
    var bySubject := userId.Some? && userId.value != "";
    var m := EntryFilter(action, userId);
    if byAction && bySubject then
      FilterFilter(logs, ActionIs(action.value), SubjectIs(userId.value), m);
      Filter(Filter(logs, ActionIs(action.value)), SubjectIs(userId.value))
    else if byAction then
      FilterExt(logs, ActionIs(action.value), m);
      Filter(logs, ActionIs(action.value))
    else if bySubject then
      FilterExt(logs, SubjectIs(userId.value), m);
      Filter(logs, SubjectIs(userId.value))
    else
      FilterAll(logs, m);
      logs
  }

  /** What every entry `getAuditLogs` returns satisfies: it is in the log,
      passes the filters, and fewer than 500 entries are newer; and the
      entries are ordered newest first. */
  ghost predicate Admissible(r: seq<AuditEntry>, logs: seq<AuditEntry>, action: Option<string>, userId: Option<string>) {
    && SortedDesc(r, Timestamp)
    && forall k :: 0 <= k < |r| ==>
         && r[k] in logs
         && EntryMatches(r[k], action, userId)
         && |Filter(logs, KeyAbove(Timestamp, r[k].timestamp))| < AuditWindow
  }

  /** What `getAuditLogs` returns once the guard has passed: the matching
      entries among the 500 newest, cut to `limit`. */
  function RecentEntries(logs: seq<AuditEntry>, action: Option<string>, userId: Option<string>, limit: int)
    : (r: seq<AuditEntry>)
    ensures |r| <= AuditWindow
    ensures limit >= 0 ==> |r| <= limit
    ensures limit >= 0 ==> r == Take(Filter(Window(logs), EntryFilter(action, userId)), limit)
    ensures var m := Filter(Window(logs), EntryFilter(action, userId));
      && |r| == |JsSlice(m, 0, limit)|
      && forall k :: 0 <= k < |r| ==> r[k] == m[k]
  {
    JsSlice(Narrowed(Window(logs), action, userId), 0, limit)
  }

  /** Everything `getAuditLogs` returns is a matching entry from the window,
      newest first. */
  lemma RecentEntriesAdmissible(logs: seq<AuditEntry>, action: Option<string>, userId: Option<string>, limit: int)
    ensures Admissible(RecentEntries(logs, action, userId, limit), logs, action, userId)
  {
    NarrowedAdmissible(logs, action, userId);
    SliceAdmissible(Narrowed(Window(logs), action, userId), limit, logs, action, userId);
  }

  /** `getAuditLogs`: the guard, then the entries; `limit` defaults to 100. */
  function GetAuditLogs(db: Db, adminAuthId: string, action: Option<string>, userId: Option<string>, limit: Option<int>)
    : (r: Result<seq<AuditEntry>, Error>)
    ensures r.Ok? <==> IsAdmin(db.users, adminAuthId) && !DuplicatedAuthId(db.users, adminAuthId)
    ensures !IsAdmin(db.users, adminAuthId) && !DuplicatedAuthId(db.users, adminAuthId) ==> r == Err(Unauthorized)
    ensures r.Ok? ==> r.value == RecentEntries(db.auditLogs, action, userId, limit.GetOr(100))
  {
    var _ :- RequireAdmin(db.users, adminAuthId);
    Ok(RecentEntries(db.auditLogs, action, userId, limit.GetOr(100)))
  }

  lemma NarrowedAdmissible(logs: seq<AuditEntry>, action: Option<string>, userId: Option<string>)
    ensures Admissible(Narrowed(Window(logs), action, userId), logs, action, userId)
  {
    var window := Window(logs);
    var narrowed := Filter(window, EntryFilter(action, userId));
    FilterSorted(window, EntryFilter(action, userId), Timestamp);
    forall k | 0 <= k < |narrowed|
      ensures narrowed[k] in window && EntryMatches(narrowed[k], action, userId)
    {
      assert narrowed[k] in narrowed;
    }
  }

  lemma SliceAdmissible(s: seq<AuditEntry>, limit: int, logs: seq<AuditEntry>, action: Option<string>, userId: Option<string>)
    requires Admissible(s, logs, action, userId)
    ensures Admissible(JsSlice(s, 0, limit), logs, action, userId)
  {
    assert ClampIndex(0, |s|) == 0;
  }
}

=== FILE: auth.dfy ===
/** Identity-provider synchronisation: the internal account functions the
    provider's component calls, and the `user.created`, `user.updated` and
    `user.deleted` webhook handlers. None of them writes an audit entry. */
module Auth {

  import opened Wrappers
  import opened Seqs
  import opened Text
  import opened Schema

  /** The user projection a webhook event carries. */
  datatype EventData = EventData(
    id: string,
    email: string,
    firstName: Option<string>,
    lastName: Option<string>,
    profilePictureUrl: Option<string>)

  datatype WebhookEvent =
    | UserCreated(data: EventData)
    | UserUpdated(data: EventData)
    | UserDeleted(data: EventData)

  /** The stored display name: first and last name joined by a space and
      trimmed, a missing part counting as empty; nothing when that is
      empty. */
  function DisplayName(firstName: Option<string>, lastName: Option<string>): (r: Option<string>)
    ensures r.None? <==> AllSpace(firstName.GetOr("")) && AllSpace(lastName.GetOr(""))
    ensures r.Some? ==> r.value != [] && !IsJsSpace(r.value[0]) && !IsJsSpace(r.value[|r.value| - 1])
    ensures r.Some? ==>
      var full := firstName.GetOr("") + " " + lastName.GetOr("");
      exists i :: OccursAt(full, r.value, i) && AllSpace(full[..i]) && AllSpace(full[i + |r.value|..])
  {
    var f, l := firstName.GetOr(""), lastName.GetOr("");
    var full := Trim(f + " " + l);
    AllSpaceJoin(f, l);
    if full == [] then None else Some(full)
  }

  /** The display name is determined by its contract: any non-empty piece
      of "first last" with only white space around it is the stored name. */
  lemma DisplayNameUnique(firstName: Option<string>, lastName: Option<string>, t: string, i: nat)
    requires var full := firstName.GetOr("") + " " + lastName.GetOr("");
      OccursAt(full, t, i) && AllSpace(full[..i]) && AllSpace(full[i + |t|..])
    requires t != [] && !IsJsSpace(t[0]) && !IsJsSpace(t[|t| - 1])
    ensures DisplayName(firstName, lastName) == Some(t)
  {
    TrimUnique(firstName.GetOr("") + " " + lastName.GetOr(""), t, i);
  }

  /** A joined name is all white space exactly when both parts are. */
  lemma AllSpaceJoin(f: string, l: string)
    ensures AllSpace(f + " " + l) <==> AllSpace(f) && AllSpace(l)
  {
    var s := f + " " + l;
    assert IsJsSpace(s[|f|]);
    if AllSpace(f) && AllSpace(l) {
      forall i | 0 <= i < |s| ensures IsJsSpace(s[i]) {
        if i > |f| { assert s[i] == l[i - |f| - 1]; }
        else if i < |f| { assert s[i] == f[i]; }
      }
    }
    if AllSpace(s) {
      forall i | 0 <= i < |f| ensures IsJsSpace(f[i]) { assert f[i] == s[i]; }
      forall i | 0 <= i < |l| ensures IsJsSpace(l[i]) { assert l[i] == s[i + |f| + 1]; }
    }
  }

  /** Two names without surrounding white space are joined by one space. */
  lemma DisplayNameJoins(first: string, last: string)
    requires first != [] && !IsJsSpace(first[0]) && !IsJsSpace(first[|first| - 1])
    requires last != [] && !IsJsSpace(last[0]) && !IsJsSpace(last[|last| - 1])
    ensures DisplayName(Some(first), Some(last)) == Some(first + " " + last)
  {
    var s := first + " " + last;
    assert s[0] == first[0] && s[|s| - 1] == last[|last| - 1];
    StrippedIsFixed(s, IsJsSpace);
  }

  /** A first name alone is kept as it is; the joining space is trimmed. */
  lemma DisplayNameFirstOnly(first: string)
    requires first != [] && !IsJsSpace(first[0]) && !IsJsSpace(first[|first| - 1])
    ensures DisplayName(Some(first), None) == Some(first)
  {
    assert first + " " + "" == first + [' '];
    StripTrailingSeparator(first, ' ', IsJsSpace);
  }

  /** A last name alone is kept as it is; the leading space is trimmed. */
  lemma DisplayNameLastOnly(last: string)
    requires last != [] && !IsJsSpace(last[0]) && !IsJsSpace(last[|last| - 1])
    ensures DisplayName(None, Some(last)) == Some(last)
  {
    assert "" + " " + last == [' '] + last;
    StripLeadingSeparator(last, ' ', IsJsSpace);
  }

  /** `getAuthAccount`: the record with that identity-provider id, or none. */
  function GetAuthAccount(db: Db, authId: string): (r: Result<Option<User>, Error>)
    ensures r == Ok(None) <==> !HasAuthId(db.users, authId)
    ensures r.Err? <==> DuplicatedAuthId(db.users, authId)
    ensures r.Ok? ==> forall i :: 0 <= i < |db.users| && db.users[i].authId == authId ==>
      r.value == Some(db.users[i])
  {
    var found :- FindByAuthId(db.users, authId);
    match found
    case None => Ok(None)
    case Some(i) => Ok(Some(db.users[i]))
  }

  /** `createAuthAccount`: inserts a "user" account without looking for an
      existing one; returns the new document id. */
  function CreateAuthAccount(
    db: Db, authId: string, email: string, name: Option<string>, avatarUrl: Option<string>, now: int)
    : (r: (Db, nat))
    ensures |r.0.users| == |db.users| + 1 && r.0.users[..|db.users|] == db.users
    ensures LastUser(r.0.users) == User(r.1, authId, email, name, avatarUrl, Some(UserRole), now, now)
    ensures r.0.sessions == db.sessions && r.0.auditLogs == db.auditLogs
    ensures UniqueAuthIds(r.0.users) <==> UniqueAuthIds(db.users) && !HasAuthId(db.users, authId)
    ensures Valid(db) ==> Valid(r.0) && forall i :: 0 <= i < |db.users| ==> db.users[i].id != r.1
  {
    var r := InsertUser(db, authId, email, name, avatarUrl, Some(UserRole), now);
    AppendUserUniqueness(db.users, r.0.users[|db.users|]);
    assert r.0.users[..|db.users|] == db.users;
    r
  }

  function LastUser(users: seq<User>): User
    requires users != []
  {
    users[|users| - 1]
  }

  /** Appending a user keeps the identity-provider ids unique exactly when
      the table had unique ids and lacked the new one. */
  lemma AppendUserUniqueness(users: seq<User>, u: User)
    ensures UniqueAuthIds(users + [u]) <==> UniqueAuthIds(users) && !HasAuthId(users, u.authId)
  {
    var s := users + [u];
    if UniqueAuthIds(s) {
      forall i, j | 0 <= i < j < |users| ensures users[i].authId != users[j].authId {
        assert s[i] == users[i] && s[j] == users[j];
      }
      forall i | 0 <= i < |users| ensures users[i].authId != u.authId {
        assert s[i] == users[i] && s[|users|] == u;
      }
    }
  }

  /** The patch `updateAuthAccount` applies: each supplied field replaces the
      stored one, and `updatedAt` is bumped. */
  function Synced(u: User, email: Option<string>, name: Option<string>, avatarUrl: Option<string>, now: int): User {
    u.(email := email.GetOr(u.email),
       name := if name.Some? then name else u.name,
       avatarUrl := if avatarUrl.Some? then avatarUrl else u.avatarUrl,
       updatedAt := now)
  }

  /** `updateAuthAccount`: patches the supplied fields of the record with that
      identity-provider id and returns its document id; returns nothing, and
      changes nothing, when there is no such record. */
  function UpdateAuthAccount(
    db: Db, authId: string, email: Option<string>, name: Option<string>, avatarUrl: Option<string>, now: int)
    : (r: Result<(Db, Option<nat>), Error>)
    ensures r.Err? <==> DuplicatedAuthId(db.users, authId)
    ensures !HasAuthId(db.users, authId) ==> r == Ok((db, None))
    ensures r.Ok? && HasAuthId(db.users, authId) ==>
      && r.value.0.sessions == db.sessions && r.value.0.auditLogs == db.auditLogs
      && |r.value.0.users| == |db.users|
      && forall i :: 0 <= i < |db.users| ==>
        && (db.users[i].authId != authId ==> r.value.0.users[i] == db.users[i])
        && (db.users[i].authId == authId ==>
              && r.value.1 == Some(db.users[i].id)
              && r.value.0.users[i].email == email.GetOr(db.users[i].email)
              && r.value.0.users[i].name == (if name.Some? then name else db.users[i].name)
              && r.value.0.users[i].avatarUrl == (if avatarUrl.Some? then avatarUrl else db.users[i].avatarUrl)
              && r.value.0.users[i].updatedAt == now
              && r.value.0.users[i].role == db.users[i].role
              && r.value.0.users[i].createdAt == db.users[i].createdAt
              && r.value.0.users[i].authId == authId)
    ensures r.Ok? && Valid(db) ==> Valid(r.value.0)
    ensures r.Ok? && UniqueAuthIds(db.users) ==> UniqueAuthIds(r.value.0.users)
  {
    var found :- FindByAuthId(db.users, authId);
    match found
    case None => Ok((db, None))
    case Some(i) =>
      var u := db.users[i];
      Ok((PutUser(db, i, Synced(u, email, name, avatarUrl, now)), Some(u.id)))
  }

  /** Deletes the record with that identity-provider id, if there is one:
      the body of `deleteAuthAccount` and of the `user.deleted` handler. */
  function RemoveAccount(db: Db, authId: string): (r: Result<Db, Error>)
    ensures r.Err? <==> DuplicatedAuthId(db.users, authId)
    ensures !HasAuthId(db.users, authId) ==> r == Ok(db)
    ensures r.Ok? ==> !HasAuthId(r.value.users, authId)
    ensures r.Ok? && HasAuthId(db.users, authId) ==>
      exists i :: 0 <= i < |db.users| && db.users[i].authId == authId && r.value.users == RemoveAt(db.users, i)
    ensures r.Ok? ==> r.value.sessions == db.sessions && r.value.auditLogs == db.auditLogs
    ensures r.Ok? && Valid(db) ==> Valid(r.value)
    ensures r.Ok? && UniqueAuthIds(db.users) ==> UniqueAuthIds(r.value.users)
  {
    var found :- FindByAuthId(db.users, authId);
    match found
    case None => Ok(db)
    case Some(i) => Ok(DeleteUserAt(db, i))
  }

  /** `deleteAuthAccount`. */
  function DeleteAuthAccount(db: Db, authId: string): (r: Result<Db, Error>)
    ensures r.Err? <==> DuplicatedAuthId(db.users, authId)
    ensures !HasAuthId(db.users, authId) ==> r == Ok(db)
    ensures r.Ok? ==> !HasAuthId(r.value.users, authId)
    ensures r.Ok? ==> forall i :: 0 <= i < |db.users| && db.users[i].authId != authId ==> db.users[i] in r.value.users
    ensures r.Ok? ==> |r.value.users| == |db.users| - (if HasAuthId(db.users, authId) then 1 else 0)
    ensures r.Ok? && HasAuthId(db.users, authId) ==>
      exists i :: 0 <= i < |db.users| && db.users[i].authId == authId && r.value.users == RemoveAt(db.users, i)
    ensures r.Ok? ==> r.value.sessions == db.sessions && r.value.auditLogs == db.auditLogs
    ensures r.Ok? && Valid(db) ==> Valid(r.value)
    ensures r.Ok? && UniqueAuthIds(db.users) ==> UniqueAuthIds(r.value.users)
  {
    RemoveAccount(db, authId)
  }

  /** Deleting an account twice is the same as deleting it once. */
  lemma DeleteAuthAccountIdempotent(db: Db, authId: string)
    requires DeleteAuthAccount(db, authId).Ok?
    ensures DeleteAuthAccount(DeleteAuthAccount(db, authId).value, authId) == DeleteAuthAccount(db, authId)
  {
  }

  /** The `user.created` handler: inserts a "user" account with the derived
      display name, without checking for an existing one. */
  function OnUserCreated(db: Db, data: EventData, now: int): (r: Db)
    ensures |r.users| == |db.users| + 1 && r.users[..|db.users|] == db.users
    ensures LastUser(r.users).authId == data.id && LastUser(r.users).email == data.email
    ensures LastUser(r.users).name == DisplayName(data.firstName, data.lastName)
    ensures LastUser(r.users).avatarUrl == data.profilePictureUrl
    ensures LastUser(r.users).role == Some(UserRole)
    ensures r.sessions == db.sessions && r.auditLogs == db.auditLogs
    ensures UniqueAuthIds(r.users) <==> UniqueAuthIds(db.users) && !HasAuthId(db.users, data.id)
    ensures Valid(db) ==> Valid(r)
  {
    CreateAuthAccount(db, data.id, data.email, DisplayName(data.firstName, data.lastName), data.profilePictureUrl, now).0
  }

  /** The `user.updated` handler: overwrites email, name and avatar from the
      event; a missing account is ignored. */
  function OnUserUpdated(db: Db, data: EventData, now: int): (r: Result<Db, Error>)
    ensures r.Err? <==> DuplicatedAuthId(db.users, data.id)
    ensures !HasAuthId(db.users, data.id) ==> r == Ok(db)
    ensures r.Ok? ==> r.value.sessions == db.sessions && r.value.auditLogs == db.auditLogs
    ensures r.Ok? ==> |r.value.users| == |db.users|
    ensures r.Ok? ==> forall i :: 0 <= i < |db.users| ==>
      && (db.users[i].authId != data.id ==> r.value.users[i] == db.users[i])
      && (db.users[i].authId == data.id ==>
            && r.value.users[i].email == data.email
            && r.value.users[i].name == DisplayName(data.firstName, data.lastName)
            && r.value.users[i].avatarUrl == data.profilePictureUrl
            && r.value.users[i].updatedAt == now
            && r.value.users[i].(email := db.users[i].email, name := db.users[i].name,
                                 avatarUrl := db.users[i].avatarUrl, updatedAt := db.users[i].updatedAt)
               == db.users[i])
    ensures r.Ok? && Valid(db) ==> Valid(r.value)
    ensures r.Ok? && UniqueAuthIds(db.users) ==> UniqueAuthIds(r.value.users)
  {
    var found :- FindByAuthId(db.users, data.id);
    match found
    case None => Ok(db)
    case Some(i) =>
      var u := db.users[i];
      Ok(PutUser(db, i, u.(email := data.email,
                           name := DisplayName(data.firstName, data.lastName),
                           avatarUrl := data.profilePictureUrl,
                           updatedAt := now)))
  }

  /** The `user.deleted` handler. */
  function OnUserDeleted(db: Db, data: EventData): (r: Result<Db, Error>)
    ensures r.Err? <==> DuplicatedAuthId(db.users, data.id)
    ensures !HasAuthId(db.users, data.id) ==> r == Ok(db)
    ensures r.Ok? ==> !HasAuthId(r.value.users, data.id)
    ensures r.Ok? && HasAuthId(db.users, data.id) ==>
      exists i :: 0 <= i < |db.users| && db.users[i].authId == data.id && r.value.users == RemoveAt(db.users, i)
    ensures r.Ok? ==> r.value.sessions == db.sessions && r.value.auditLogs == db.auditLogs
    ensures r.Ok? && Valid(db) ==> Valid(r.value)
    ensures r.Ok? && UniqueAuthIds(db.users) ==> UniqueAuthIds(r.value.users)
  {
    RemoveAccount(db, data.id)
  }

  /** The `user.deleted` handler is idempotent: a redelivered deletion
      changes nothing. */
  lemma OnUserDeletedIdempotent(db: Db, data: EventData)
    requires OnUserDeleted(db, data).Ok?
    ensures OnUserDeleted(OnUserDeleted(db, data).value, data) == OnUserDeleted(db, data)
  {
  }

  /** Dispatch of a webhook delivery to its handler. Webhook-driven changes
      touch the users table only: sessions and the audit log are left as
      they were. */
  function HandleEvent(db: Db, event: WebhookEvent, now: int): (r: Result<Db, Error>)
    ensures r.Ok? ==> r.value.sessions == db.sessions && r.value.auditLogs == db.auditLogs
    ensures event.UserCreated? ==> r.Ok?
    ensures r.Ok? && Valid(db) ==> Valid(r.value)
    ensures r.Ok? && UniqueAuthIds(db.users) ==>
      (UniqueAuthIds(r.value.users) <==> !(event.UserCreated? && HasAuthId(db.users, event.data.id)))
  {
    match event
    case UserCreated(data) => Ok(OnUserCreated(db, data, now))
    case UserUpdated(data) => OnUserUpdated(db, data, now)
    case UserDeleted(data) => OnUserDeleted(db, data)
  }

  /** A second `user.created` delivery for an id already present breaks the
      uniqueness the lookups presume: every later `.unique()` lookup of that
      id throws. */
  lemma DuplicateCreateBreaksLookups(db: Db, data: EventData, now: int)
    requires HasAuthId(db.users, data.id)
    ensures !UniqueAuthIds(OnUserCreated(db, data, now).users)
    ensures FindByAuthId(OnUserCreated(db, data, now).users, data.id) == Err(NotUnique)
  {
    var users := OnUserCreated(db, data, now).users;
    var i :| 0 <= i < |db.users| && db.users[i].authId == data.id;
    assert users[i] == db.users[i];
    assert users[|db.users|].authId == data.id;
  }
}

=== FILE: schema.dfy ===
/** The three tables of the data layer (`users`, `sessions`, `auditLogs`),
    the lookups every service function performs on them, and the row-level
    writes (`insert`, `patch`, `delete`) the services are built from. */
module Schema {

  import opened Wrappers
  import opened Seqs

  /** A `users` row. `id` is the document id the database assigns; `authId`
      is the identity provider's id for the account. A missing `role` reads
      as "user". */
  datatype User = User(
    id: nat,
    authId: string,
    email: string,
    name: Option<string>,
    avatarUrl: Option<string>,
    role: Option<string>,
    createdAt: int,
    updatedAt: int)

  /** A `sessions` row; `userId` holds the owner's `authId`. */
  datatype Session = Session(
    id: nat,
    userId: string,
    deviceInfo: string,
    ipAddress: Option<string>,
    lastActive: int,
    createdAt: int)

  /** The `metadata` object each kind of audit entry carries. */
  datatype Metadata =
    | NoMetadata
    | ProfileChanges(changes: seq<string>)
    | RevokedDevice(deviceInfo: string)
    | RevokedCount(count: nat)
    | DeletedEmail(email: string)
    | RoleChange(oldRole: string, newRole: string)
    | BanDetails(reason: Option<string>, sessionsRevoked: nat)

  /** An `auditLogs` row. */
  datatype AuditEntry = AuditEntry(
    id: nat,
    action: string,
    userId: Option<string>,
    adminId: Option<string>,
    metadata: Metadata,
    timestamp: int)

  /** The database: the three tables in insertion order, and the counter
      from which fresh document ids are drawn. */
  datatype Db = Db(
    users: seq<User>,
    sessions: seq<Session>,
    auditLogs: seq<AuditEntry>,
    nextId: nat)

  /** The errors the service functions throw, one per message; `NotUnique`
      is the database's own error when `.unique()` meets more than one row. */
  datatype Error =
    | Unauthorized                   // "Unauthorized: Admin access required"
    | UserNotFound                   // "User not found"
    | CannotRemoveOwnAdmin           // "Cannot remove your own admin role"
    | CannotBanSelf                  // "Cannot ban yourself"
    | CannotBanAdmin                 // "Cannot ban another admin"
    | NotBanned                      // "User is not banned"
    | SessionNotFoundOrUnauthorized  // "Session not found or unauthorized"
    | NotUnique

  const UserRole := "user"
  const AdminRole := "admin"
  const BannedRole := "banned"

  const ProfileUpdated := "profile.updated"
  const SessionRevoked := "session.revoked"
  const SessionsRevokedAll := "sessions.revoked_all"
  const AccountDeleted := "account.deleted"
  const RoleChanged := "user.role_changed"
  const UserBanned := "user.banned"
  const UserUnbanned := "user.unbanned"

  /** The role as every projection reports it (`role ?? "user"`). */
  function RoleOf(u: User): string {
    u.role.GetOr(UserRole)
  }

  /** The user as `getProfile` and `listUsers` return it. */
  datatype Profile = Profile(
    id: nat,
    authId: string,
    email: string,
    name: Option<string>,
    avatarUrl: Option<string>,
    role: string,
    createdAt: int)

  function ProfileOf(u: User): (p: Profile)
    ensures p.id == u.id && p.authId == u.authId && p.email == u.email
    ensures p.name == u.name && p.avatarUrl == u.avatarUrl && p.createdAt == u.createdAt
    ensures u.role.None? ==> p.role == UserRole
    ensures u.role.Some? ==> p.role == u.role.value
  {
    Profile(u.id, u.authId, u.email, u.name, u.avatarUrl, RoleOf(u), u.createdAt)
  }

  /** The user as `getById` and `getUserDetail` return it. */
  datatype UserView = UserView(
    id: nat,
    authId: string,
    email: string,
    name: Option<string>,
    avatarUrl: Option<string>,
    role: string,
    createdAt: int,
    updatedAt: int)

  function UserViewOf(u: User): UserView {
    UserView(u.id, u.authId, u.email, u.name, u.avatarUrl, RoleOf(u), u.createdAt, u.updatedAt)
  }

  /** A session as `getSessions` and `getUserDetail` return it. */
  datatype SessionView = SessionView(
    id: nat,
    deviceInfo: string,
    ipAddress: Option<string>,
    lastActive: int,
    createdAt: int)

  function SessionViewOf(s: Session): SessionView {
    SessionView(s.id, s.deviceInfo, s.ipAddress, s.lastActive, s.createdAt)
  }

  function UserDocId(u: User): nat { u.id }
  function SessionDocId(s: Session): nat { s.id }
  function EntryDocId(e: AuditEntry): nat { e.id }

  /** Document ids are distinct within each table and below the counter. */
  ghost predicate Valid(db: Db) {
    && DistinctBelow(db.users, UserDocId, db.nextId)
    && DistinctBelow(db.sessions, SessionDocId, db.nextId)
    && DistinctBelow(db.auditLogs, EntryDocId, db.nextId)
  }

  /** At most one user per identity-provider id: what the lookups'
      `.unique()` presumes. The schema itself does not enforce it. */
  predicate UniqueAuthIds(users: seq<User>) {
    forall i, j :: 0 <= i < j < |users| ==> users[i].authId != users[j].authId
  }

  predicate HasAuthId(users: seq<User>, authId: string) {
    exists i :: 0 <= i < |users| && users[i].authId == authId
  }

  /** Two rows share `authId`, so a `.unique()` lookup of it throws. */
  predicate DuplicatedAuthId(users: seq<User>, authId: string) {
    exists i, j :: 0 <= i < j < |users| && users[i].authId == authId && users[j].authId == authId
  }

  function WithAuthId(authId: string): User -> bool {
    (u: User) => u.authId == authId
  }

  /** `query("users").withIndex("by_authId", ...).unique()`: the position of
      the one user with that `authId`, none, or an error when there are
      several. */
  function FindByAuthId(users: seq<User>, authId: string): (r: Result<Option<nat>, Error>)
    ensures r == Ok(None) <==> !HasAuthId(users, authId)
    ensures r.Err? <==> DuplicatedAuthId(users, authId)
    ensures r.Err? ==> r.error == NotUnique
    ensures r.Ok? && r.value.Some? ==>
      && r.value.value < |users|
      && users[r.value.value].authId == authId
    ensures r.Ok? ==> forall j :: 0 <= j < |users| && users[j].authId == authId ==> r.value == Some(j)
  {
    var ps := Positions(users, WithAuthId(authId));
    if |ps| == 0 then Ok(None)
    else if |ps| == 1 then Ok(Some(ps[0]))
    else
      assert users[ps[0]].authId == authId && users[ps[1]].authId == authId;
      Err(NotUnique)
  }

  /** Under the uniqueness invariant a lookup by `authId` never throws. */
  lemma UniqueLookupSucceeds(users: seq<User>, authId: string)
    requires UniqueAuthIds(users)
    ensures FindByAuthId(users, authId).Ok?
  {
  }

  function WithDocId(id: nat): User -> bool {
    (u: User) => u.id == id
  }

  /** `db.get(id)` on the users table. */
  function FindById(users: seq<User>, id: nat): (r: Option<nat>)
    ensures r.None? <==> forall i :: 0 <= i < |users| ==> users[i].id != id
    ensures r.Some? ==> r.value < |users| && users[r.value].id == id
  {
    FirstWhere(users, WithDocId(id))
  }

  function OwnedBy(userId: string): Session -> bool {
    (s: Session) => s.userId == userId
  }

  /** `query("sessions").withIndex("by_user", ...).collect()`. */
  function SessionsOf(sessions: seq<Session>, userId: string): seq<Session> {
    Filter(sessions, OwnedBy(userId))
  }

  /** One more entry at the end, and the old log as its prefix. */
  predicate AppendsOne(before: seq<AuditEntry>, after: seq<AuditEntry>) {
    |after| == |before| + 1 && after[..|before|] == before
  }

  function Newest(logs: seq<AuditEntry>): AuditEntry
    requires logs != []
  {
    logs[|logs| - 1]
  }

  /** `insert("auditLogs", ...)`. */
  function AppendLog(
    db: Db, action: string, userId: Option<string>, adminId: Option<string>,
    metadata: Metadata, now: int): (r: Db)
    ensures r.users == db.users && r.sessions == db.sessions
    ensures AppendsOne(db.auditLogs, r.auditLogs)
    ensures Newest(r.auditLogs) == AuditEntry(db.nextId, action, userId, adminId, metadata, now)
    ensures Valid(db) ==> Valid(r)
  {
    var e := AuditEntry(db.nextId, action, userId, adminId, metadata, now);
    var r := Db(db.users, db.sessions, db.auditLogs + [e], db.nextId + 1);
    assert r.auditLogs[..|db.auditLogs|] == db.auditLogs;
    r
  }

  /** `insert("users", ...)`: the new row gets a fresh id, which is returned. */
  function InsertUser(
    db: Db, authId: string, email: string, name: Option<string>,
    avatarUrl: Option<string>, role: Option<string>, now: int): (r: (Db, nat))
    ensures r.0.users == db.users + [User(r.1, authId, email, name, avatarUrl, role, now, now)]
    ensures r.0.sessions == db.sessions && r.0.auditLogs == db.auditLogs
    ensures Valid(db) ==> Valid(r.0) && forall i :: 0 <= i < |db.users| ==> db.users[i].id != r.1
  {
    var u := User(db.nextId, authId, email, name, avatarUrl, role, now, now);
    (Db(db.users + [u], db.sessions, db.auditLogs, db.nextId + 1), db.nextId)
  }

  /** `insert("sessions", ...)`. */
  function InsertSession(db: Db, s: Session): (r: (Db, nat))
    ensures r.0.sessions == db.sessions + [s.(id := r.1)]
    ensures r.0.users == db.users && r.0.auditLogs == db.auditLogs
    ensures Valid(db) ==> Valid(r.0) && forall i :: 0 <= i < |db.sessions| ==> db.sessions[i].id != r.1
  {
    (Db(db.users, db.sessions + [s.(id := db.nextId)], db.auditLogs, db.nextId + 1), db.nextId)
  }

  /** `patch` of the user at position `i`; the document id is kept. */
  function PutUser(db: Db, i: nat, u: User): (r: Db)
    requires i < |db.users| && u.id == db.users[i].id
    ensures r.users == db.users[i := u]
    ensures r.sessions == db.sessions && r.auditLogs == db.auditLogs
    ensures Valid(db) ==> Valid(r)
    ensures u.authId == db.users[i].authId ==> (UniqueAuthIds(r.users) <==> UniqueAuthIds(db.users))
  {
    var r := db.(users := db.users[i := u]);
    assert forall j :: 0 <= j < |db.users| ==> UserDocId(r.users[j]) == UserDocId(db.users[j]);
    assert u.authId == db.users[i].authId ==>
      forall j :: 0 <= j < |db.users| ==> r.users[j].authId == db.users[j].authId;
    r
  }

  /** `delete` of the user at position `i`. */
  function DeleteUserAt(db: Db, i: nat): (r: Db)
    requires i < |db.users|
    ensures r.users == RemoveAt(db.users, i)
    ensures r.sessions == db.sessions && r.auditLogs == db.auditLogs
    ensures Valid(db) ==> Valid(r)
    ensures UniqueAuthIds(db.users) ==> UniqueAuthIds(r.users)
  {
    RemoveAtDistinct(db.users, i, UserDocId, db.nextId);
    RemoveAtUnique(db.users, i);
    db.(users := RemoveAt(db.users, i))
  }

  /** Deleting a row keeps the authIds of the others distinct. */
  lemma RemoveAtUnique(users: seq<User>, i: nat)
    requires i < |users|
    ensures UniqueAuthIds(users) ==> UniqueAuthIds(RemoveAt(users, i))
  {
    var r := RemoveAt(users, i);
    forall a, b | 0 <= a < b < |r| && UniqueAuthIds(users)
      ensures r[a].authId != r[b].authId
    {
      var a' := if a < i then a else a + 1;
      var b' := if b < i then b else b + 1;
      assert r[a] == users[a'] && r[b] == users[b'];
    }
  }

  /** `delete` of the session at position `i`. */
  function DeleteSessionAt(db: Db, i: nat): (r: Db)
    requires i < |db.sessions|
    ensures r.sessions == RemoveAt(db.sessions, i)
    ensures r.users == db.users && r.auditLogs == db.auditLogs
    ensures Valid(db) ==> Valid(r)
  {
    RemoveAtDistinct(db.sessions, i, SessionDocId, db.nextId);
    db.(sessions := RemoveAt(db.sessions, i))
  }

  /** The loop that deletes every session of `userId`. */
  function DeleteSessionsOf(db: Db, userId: string): (r: Db)
    ensures r.sessions == Filter(db.sessions, Not(OwnedBy(userId)))
    ensures r.users == db.users && r.auditLogs == db.auditLogs
    ensures Valid(db) ==> Valid(r)
  {
    FilterDistinct(db.sessions, Not(OwnedBy(userId)), SessionDocId, db.nextId);
    db.(sessions := Filter(db.sessions, Not(OwnedBy(userId))))
  }

  /** Deleting every session of `userId` leaves that user none, leaves every
      other user's sessions as they were, and removes exactly as many rows
      as that user had. */
  lemma {:induction false} DeleteSessionsOfFrame(sessions: seq<Session>, userId: string)
    ensures SessionsOf(Filter(sessions, Not(OwnedBy(userId))), userId) == []
    ensures forall other :: other != userId ==>
      SessionsOf(Filter(sessions, Not(OwnedBy(userId))), other) == SessionsOf(sessions, other)
    ensures |Filter(sessions, Not(OwnedBy(userId)))| == |sessions| - |SessionsOf(sessions, userId)|
  {
    var rest := Filter(sessions, Not(OwnedBy(userId)));
    assert forall i :: 0 <= i < |rest| ==> !OwnedBy(userId)(rest[i]) by {
      forall i | 0 <= i < |rest| ensures !OwnedBy(userId)(rest[i]) {
        assert rest[i] in rest;
      }
    }
    FilterNone(rest, OwnedBy(userId));
    forall other | other != userId
      ensures SessionsOf(rest, other) == SessionsOf(sessions, other)
    {
      FilterSubsumed(sessions, Not(OwnedBy(userId)), OwnedBy(other));
    }
    FilterComplement(sessions, OwnedBy(userId));
  }

  /** Deleting one session leaves every other owner's sessions as they were. */
  lemma DeleteSessionAtFrame(sessions: seq<Session>, i: nat, other: string)
    requires i < |sessions| && sessions[i].userId != other
    ensures SessionsOf(RemoveAt(sessions, i), other) == SessionsOf(sessions, other)
  {
    var p := OwnedBy(other);
    var a, x, b := sessions[..i], sessions[i], sessions[i + 1..];
    assert sessions == (a + [x]) + b;
    assert RemoveAt(sessions, i) == a + b;
    assert Filter([x], p) == [] by {
      FilterNone([x], p);
    }
    calc {
      Filter(sessions, p);
      { FilterAppend(a + [x], b, p); }
      Filter(a + [x], p) + Filter(b, p);
      { FilterAppend(a, [x], p); }
      Filter(a, p) + Filter(b, p);
      { FilterAppend(a, b, p); }
      Filter(a + b, p);
    }
  }

  /** Inserting a session adds it to its owner's list only. */
  lemma InsertSessionFrame(sessions: seq<Session>, s: Session, other: string)
    ensures SessionsOf(sessions + [s], other)
         == SessionsOf(sessions, other) + (if s.userId == other then [s] else [])
  {
    FilterAppend(sessions, [s], OwnedBy(other));
    assert [s][1..] == [];
  }
}

=== FILE: seqs.dfy ===
/** Generic sequence operations standing in for the JavaScript array methods
    and database cursor operations the service uses: `filter`, `map`,
    `slice`, `take`, a reversed index scan, and positional lookups. */
module Seqs {

  import opened Wrappers

  function Min(a: int, b: int): int {
    if a <= b then a else b
  }

  /** The elements of `s` that satisfy `p`, in their original order
      (`Array.prototype.filter`). */
  function Filter<T(!new)>(s: seq<T>, p: T -> bool): (r: seq<T>)
    ensures |r| <= |s|
    ensures forall x :: x in r <==> x in s && p(x)
  {
    if s == [] then []
    else if p(s[0]) then [s[0]] + Filter(s[1..], p)
    else Filter(s[1..], p)
  }

  /** The complement of a predicate. */
  function Not<T>(p: T -> bool): T -> bool {
    x => !p(x)
  }

  /** A predicate and its complement split a sequence between them. */
  lemma {:induction false} FilterComplement<T(!new)>(s: seq<T>, p: T -> bool)
    ensures |Filter(s, p)| + |Filter(s, Not(p))| == |s|
  {
    if s != [] {
      FilterComplement(s[1..], p);
    }
  }

  /** Filtering distributes over concatenation, so it keeps relative order. */
  lemma {:induction false} FilterAppend<T(!new)>(a: seq<T>, b: seq<T>, p: T -> bool)
    ensures Filter(a + b, p) == Filter(a, p) + Filter(b, p)
  {
    if a == [] {
      assert a + b == b;
    } else {
      assert (a + b)[0] == a[0];
      assert (a + b)[1..] == a[1..] + b;
      FilterAppend(a[1..], b, p);
    }
  }

  /** Filters that agree on every element select the same elements. */
  lemma {:induction false} FilterExt<T(!new)>(s: seq<T>, p: T -> bool, q: T -> bool)
    requires forall i :: 0 <= i < |s| ==> p(s[i]) == q(s[i])
    ensures Filter(s, p) == Filter(s, q)
  {
    if s != [] {
      FilterExt(s[1..], p, q);
    }
  }

  /** Filtering by a weaker predicate first changes nothing. */
  lemma {:induction false} FilterSubsumed<T(!new)>(s: seq<T>, q: T -> bool, p: T -> bool)
    requires forall x :: p(x) ==> q(x)
    ensures Filter(Filter(s, q), p) == Filter(s, p)
  {
    if s != [] {
      FilterSubsumed(s[1..], q, p);
    }
  }

  /** Two filters in a row select what their conjunction selects. */
  lemma {:induction false} FilterFilter<T(!new)>(s: seq<T>, p: T -> bool, q: T -> bool, both: T -> bool)
    requires forall x :: both(x) == (p(x) && q(x))
    ensures Filter(Filter(s, p), q) == Filter(s, both)
  {
    if s != [] {
      FilterFilter(s[1..], p, q, both);
    }
  }

  /** Nothing survives a filter that no element satisfies. */
  lemma FilterNone<T(!new)>(s: seq<T>, p: T -> bool)
    requires forall i :: 0 <= i < |s| ==> !p(s[i])
    ensures Filter(s, p) == []
  {
  }

  /** Filtering keeps every element when all of them satisfy the predicate. */
  lemma {:induction false} FilterAll<T(!new)>(s: seq<T>, p: T -> bool)
    requires forall i :: 0 <= i < |s| ==> p(s[i])
    ensures Filter(s, p) == s
  {
    if s != [] {
      FilterAll(s[1..], p);
    }
  }

  /** Sequences with the same elements, counted with multiplicity, have the
      same number of elements satisfying any predicate. */
  lemma {:induction false} FilterCountPermutation<T(!new)>(a: seq<T>, b: seq<T>, p: T -> bool)
    requires multiset(a) == multiset(b)
    ensures |Filter(a, p)| == |Filter(b, p)|
    decreases |a|
  {
    if a == [] {
      assert |b| == |multiset(b)| == 0;
    } else {
      var x := a[0];
      assert x in multiset(b);
      var j :| 0 <= j < |b| && b[j] == x;
      var b' := b[..j] + b[j+1..];
      assert b == b[..j] + [x] + b[j+1..];
      assert a == [x] + a[1..];
      calc {
        multiset(a[1..]) + multiset{x};
        multiset(a);
        multiset(b);
        multiset(b[..j]) + multiset{x} + multiset(b[j+1..]);
        multiset(b') + multiset{x};
      }
      assert multiset(a[1..]) == multiset(a[1..]) + multiset{x} - multiset{x};
      assert multiset(b') == multiset(b') + multiset{x} - multiset{x};
      FilterCountPermutation(a[1..], b', p);
      FilterAppend(b[..j] + [x], b[j+1..], p);
      FilterAppend(b[..j], [x], p);
      FilterAppend(b[..j], b[j+1..], p);
      assert Filter([x], p) == (if p(x) then [x] else []) by {
        assert [x][1..] == [];
      }
    }
  }

  /** `Array.prototype.map`. */
  function Map<T, U>(s: seq<T>, f: T -> U): (r: seq<U>)
    ensures |r| == |s|
    ensures forall i :: 0 <= i < |s| ==> r[i] == f(s[i])
  {
    seq(|s|, i requires 0 <= i < |s| => f(s[i]))
  }

  /** The elements of `s` in reverse order: a descending scan of an index
      whose entries are ordered by insertion. */
  function Reverse<T>(s: seq<T>): (r: seq<T>)
    ensures |r| == |s|
    ensures forall i :: 0 <= i < |s| ==> r[i] == s[|s| - 1 - i]
    ensures multiset(r) == multiset(s)
  {
    if s == [] then []
    else
      assert s == [s[0]] + s[1..];
      Reverse(s[1..]) + [s[0]]
  }

  /** The first `n` elements, or all of them when there are fewer (a database
      query's `.take(n)`). */
  function Take<T>(s: seq<T>, n: nat): (r: seq<T>)
    ensures |r| == Min(n, |s|)
    ensures forall i :: 0 <= i < |r| ==> r[i] == s[i]
  {
    if n <= |s| then s[..n] else s
  }

  /** A slice bound as `Array.prototype.slice` normalises it: a negative
      position counts back from the end, and the result lies in `[0, len]`. */
  function ClampIndex(i: int, len: nat): (r: nat)
    ensures r <= len
    ensures 0 <= i ==> r == Min(i, len)
    ensures i < 0 ==> r == (if len + i < 0 then 0 else len + i)
  {
    if i < 0 then (if len + i < 0 then 0 else len + i)
    else if i > len then len
    else i
  }

  /** `Array.prototype.slice(begin, end)`. */
  function JsSlice<T>(s: seq<T>, begin: int, end: int): (r: seq<T>)
    ensures |r| <= |s|
    ensures 0 <= begin <= end ==> r == s[Min(begin, |s|)..Min(end, |s|)]
    ensures 0 <= begin <= end ==> |r| <= end - begin
    ensures ClampIndex(begin, |s|) + |r| <= |s|
    ensures |r| == if ClampIndex(begin, |s|) < ClampIndex(end, |s|) then ClampIndex(end, |s|) - ClampIndex(begin, |s|) else 0
    ensures forall i :: 0 <= i < |r| ==> r[i] == s[ClampIndex(begin, |s|) + i]
    ensures forall i :: 0 <= i < |r| ==> r[i] in s
  {
    var b := ClampIndex(begin, |s|);
    var e := ClampIndex(end, |s|);
    if b < e then s[b..e] else []
  }

  /** The positions of `s` whose element satisfies `p`, in increasing order. */
  function Positions<T>(s: seq<T>, p: T -> bool): (r: seq<nat>)
    ensures forall k :: 0 <= k < |r| ==> r[k] < |s| && p(s[r[k]])
    ensures forall i :: 0 <= i < |s| && p(s[i]) ==> i in r
    ensures forall k, l :: 0 <= k < l < |r| ==> r[k] < r[l]
  {
    if s == [] then []
    else
      var init := s[..|s| - 1];
      assert forall i :: 0 <= i < |init| ==> init[i] == s[i];
      Positions(init, p) + (if p(s[|s| - 1]) then [|s| - 1] else [])
  }

  /** The first position whose element satisfies `p` (a lookup by id). */
  function FirstWhere<T>(s: seq<T>, p: T -> bool): (r: Option<nat>)
    ensures r.None? <==> forall i :: 0 <= i < |s| ==> !p(s[i])
    ensures r.Some? ==> r.value < |s| && p(s[r.value])
    ensures r.Some? ==> forall j :: 0 <= j < r.value ==> !p(s[j])
  {
    if s == [] then None
    else if p(s[0]) then Some(0)
    else match FirstWhere(s[1..], p)
      case None => None
      case Some(k) => Some(k + 1)
  }

  /** The sequence without its element at position `i` (a row delete). */
  function RemoveAt<T>(s: seq<T>, i: nat): (r: seq<T>)
    requires i < |s|
    ensures |r| == |s| - 1
    ensures forall j :: 0 <= j < i ==> r[j] == s[j]
    ensures forall j :: i <= j < |r| ==> r[j] == s[j + 1]
  {
    s[..i] + s[i + 1..]
  }

  /** Every element carries a distinct id below `bound`: ids are handed out
      from a counter and never reused. */
  ghost predicate DistinctBelow<T>(s: seq<T>, id: T -> nat, bound: nat) {
    && (forall i :: 0 <= i < |s| ==> id(s[i]) < bound)
    && (forall i, j :: 0 <= i < j < |s| ==> id(s[i]) != id(s[j]))
  }

  lemma {:induction false} FilterDistinct<T(!new)>(s: seq<T>, p: T -> bool, id: T -> nat, bound: nat)
    ensures DistinctBelow(s, id, bound) ==> DistinctBelow(Filter(s, p), id, bound)
  {
    if s != [] && DistinctBelow(s, id, bound) {
      FilterDistinct(s[1..], p, id, bound);
      var t := Filter(s[1..], p);
      forall j | 0 <= j < |t|
        ensures id(t[j]) != id(s[0])
      {
        assert t[j] in s[1..];
      }
    }
  }

  lemma RemoveAtDistinct<T>(s: seq<T>, i: nat, id: T -> nat, bound: nat)
    requires i < |s|
    ensures DistinctBelow(s, id, bound) ==> DistinctBelow(RemoveAt(s, i), id, bound)
  {
    var r := RemoveAt(s, i);
    forall a, b | 0 <= a < b < |r| && DistinctBelow(s, id, bound)
      ensures id(r[a]) != id(r[b])
    {
      var a' := if a < i then a else a + 1;
      var b' := if b < i then b else b + 1;
      assert r[a] == s[a'] && r[b] == s[b'];
    }
  }

  /** A second update at the same position overrides the first. */
  lemma UpdateTwice<T>(s: seq<T>, i: nat, x: T, y: T)
    requires i < |s|
    ensures s[i := x][i := y] == s[i := y]
  {
  }

  /** Filtering commutes with reversal. */
  lemma {:induction false} FilterReverse<T(!new)>(s: seq<T>, p: T -> bool)
    ensures Filter(Reverse(s), p) == Reverse(Filter(s, p))
  {
    if s != [] {
      FilterReverse(s[1..], p);
      FilterAppend(Reverse(s[1..]), [s[0]], p);
      assert Filter([s[0]], p) == (if p(s[0]) then [s[0]] else []) by {
        assert [s[0]][1..] == [];
      }
      if p(s[0]) {
        var f := Filter(s[1..], p);
        assert ([s[0]] + f)[1..] == f;
      }
    }
  }

  /** A prefix holds no element more often than the whole sequence. */
  lemma PrefixSubMultiset<T>(s: seq<T>, n: nat)
    requires n <= |s|
    ensures multiset(s[..n]) <= multiset(s)
  {
    assert s == s[..n] + s[n..];
  }
}

=== FILE: sorting.dfy ===
/** A stable sort into descending order of an integer key. It stands for
    `Array.prototype.sort` with a `(a, b) => key(b) - key(a)` comparator
    (which the ECMAScript standard requires to be stable) and for a
    descending scan of a database index, whose ties follow the scanned
    order. */
module Sorting {

  import opened Seqs

  ghost predicate SortedDesc<T>(s: seq<T>, key: T -> int) {
    forall i, j :: 0 <= i < j < |s| ==> key(s[i]) >= key(s[j])
  }

  /** Places `x` before the first element whose key is not larger than its
      own, i.e. ahead of its equals. */
  function Insert<T>(x: T, s: seq<T>, key: T -> int): (r: seq<T>)
    ensures multiset(r) == multiset(s) + multiset{x}
  {
    if s == [] || key(x) >= key(s[0]) then [x] + s
    else
      assert s == [s[0]] + s[1..];
      [s[0]] + Insert(x, s[1..], key)
  }

  lemma {:induction false} InsertSorted<T>(x: T, s: seq<T>, key: T -> int)
    requires SortedDesc(s, key)
    ensures SortedDesc(Insert(x, s, key), key)
  {
    if s != [] && key(x) < key(s[0]) {
      var t := Insert(x, s[1..], key);
      InsertSorted(x, s[1..], key);
      forall k | 0 <= k < |t|
        ensures key(s[0]) >= key(t[k])
      {
        assert t[k] in multiset(t);
        assert t[k] in multiset(s[1..]) + multiset{x};
        if t[k] != x {
          assert t[k] in s[1..];
        }
      }
    }
  }

  /** `s` in descending key order; elements with equal keys keep their
      relative order (see `SortStable`). */
  function SortDesc<T>(s: seq<T>, key: T -> int): (r: seq<T>)
    ensures multiset(r) == multiset(s)
    ensures |r| == |s|
    ensures SortedDesc(r, key)
  {
    if s == [] then []
    else
      assert s == [s[0]] + s[1..];
      InsertSorted(s[0], SortDesc(s[1..], key), key);
      var r := Insert(s[0], SortDesc(s[1..], key), key);
      assert |r| == |multiset(r)| == |multiset(s)| == |s|;
      r
  }

  /** The elements whose key is exactly `k`. */
  function KeyIs<T>(key: T -> int, k: int): T -> bool {
    x => key(x) == k
  }

  /** The elements whose key is strictly larger than `k`. */
  function KeyAbove<T>(key: T -> int, k: int): T -> bool {
    x => key(x) > k
  }

  lemma {:induction false} InsertStable<T(!new)>(x: T, s: seq<T>, key: T -> int, k: int)
    ensures Filter(Insert(x, s, key), KeyIs(key, k))
         == (if key(x) == k then [x] else []) + Filter(s, KeyIs(key, k))
  {
    var p := KeyIs(key, k);
    if s == [] || key(x) >= key(s[0]) {
      assert ([x] + s)[1..] == s;
    } else {
      InsertStable(x, s[1..], key, k);
      var t := Insert(x, s[1..], key);
      assert ([s[0]] + t)[1..] == t;
    }
  }

  /** Stability: among elements with equal keys, the sorted sequence lists
      them in exactly the order of the input. */
  lemma {:induction false} SortStable<T(!new)>(s: seq<T>, key: T -> int, k: int)
    ensures Filter(SortDesc(s, key), KeyIs(key, k)) == Filter(s, KeyIs(key, k))
  {
    if s != [] {
      SortStable(s[1..], key, k);
      InsertStable(s[0], SortDesc(s[1..], key), key, k);
    }
  }

  /** Filtering keeps a descending sequence descending. */
  lemma {:induction false} FilterSorted<T(!new)>(s: seq<T>, p: T -> bool, key: T -> int)
    requires SortedDesc(s, key)
    ensures SortedDesc(Filter(s, p), key)
  {
    if s != [] {
      FilterSorted(s[1..], p, key);
      var t := Filter(s[1..], p);
      forall k | 0 <= k < |t|
        ensures key(s[0]) >= key(t[k])
      {
        assert t[k] in s[1..];
      }
    }
  }

  /** In a descending sequence, fewer than `i + 1` elements have a key above
      that of the element at position `i`. */
  lemma SortedRank<T(!new)>(s: seq<T>, key: T -> int, i: nat)
    requires SortedDesc(s, key)
    requires i < |s|
    ensures |Filter(s, KeyAbove(key, key(s[i])))| <= i
  {
    var p := KeyAbove(key, key(s[i]));
    assert s == s[..i] + s[i..];
    FilterAppend(s[..i], s[i..], p);
    FilterNone(s[i..], p);
  }

  /** In a sequence sorted largest first, an element with a strictly larger
      key comes strictly earlier. */
  lemma SortedBefore<T>(s: seq<T>, key: T -> int, k: nat, j: nat)
    requires SortedDesc(s, key)
    requires k < |s| && j < |s| && key(s[j]) > key(s[k])
    ensures j < k
  {
  }

  /** A prefix of a sequence sorted largest first holds every element whose
      key is larger than that of one of its own. */
  lemma SortedPrefixClosed<T>(s: seq<T>, key: T -> int, n: nat)
    requires SortedDesc(s, key) && n <= |s|
    ensures forall e, x :: e in s[..n] && x in s && key(x) > key(e) ==> x in s[..n]
  {
    forall e, x | e in s[..n] && x in s && key(x) > key(e)
      ensures x in s[..n]
    {
      var k :| 0 <= k < n && s[..n][k] == e;
      var j :| 0 <= j < |s| && s[j] == x;
      SortedBefore(s, key, k, j);
      assert s[..n][j] == x;
    }
  }
}

=== FILE: text.dfy ===
/** The string operations the service relies on: `toLowerCase`,
    `includes` and `trim`. */
module Text {

  /** `String.prototype.toLowerCase` on one character; only the ASCII
      letters are folded. */
  function LowerChar(c: char): char {
    if 'A' <= c <= 'Z' then (c as int + 32) as char else c
  }

  function ToLower(s: string): (r: string)
    ensures |r| == |s|
    ensures forall i :: 0 <= i < |s| ==> r[i] == LowerChar(s[i])
  {
    seq(|s|, i requires 0 <= i < |s| => LowerChar(s[i]))
  }

  /** `sub` appears in `s` starting at position `i`. */
  predicate OccursAt(s: string, sub: string, i: int) {
    0 <= i && i + |sub| <= |s| && s[i..i + |sub|] == sub
  }

  /** `String.prototype.includes`, by scanning from the left. */
  predicate Includes(s: string, sub: string) {
    if |sub| <= |s| && s[..|sub|] == sub then true
    else if s == [] then false
    else Includes(s[1..], sub)
  }

  /** The scan finds `sub` exactly when it occurs at some position. */
  lemma {:induction false} IncludesIff(s: string, sub: string)
    ensures Includes(s, sub) <==> exists i :: OccursAt(s, sub, i)
  {
    if |sub| <= |s| && s[..|sub|] == sub {
      assert OccursAt(s, sub, 0);
    } else if s != [] {
      IncludesIff(s[1..], sub);
      if exists i :: OccursAt(s[1..], sub, i) {
        var i :| OccursAt(s[1..], sub, i);
        assert s[1..][i..i + |sub|] == s[i + 1..i + 1 + |sub|];
        assert OccursAt(s, sub, i + 1);
      }
      if exists i :: OccursAt(s, sub, i) {
        var i :| OccursAt(s, sub, i);
        assert i != 0;
        assert s[1..][i - 1..i - 1 + |sub|] == s[i..i + |sub|];
        assert OccursAt(s[1..], sub, i - 1);
      }
    }
  }

  /** The characters `String.prototype.trim` removes: the ECMAScript
      WhiteSpace and LineTerminator code points. */
  predicate IsJsSpace(c: char) {
    || c == ' ' || c == '\t' || c == '\n' || c == '\r'
    || c == '\U{B}' || c == '\U{C}' || c == '\U{A0}' || c == '\U{1680}'
    || ('\U{2000}' <= c <= '\U{200A}')
    || c == '\U{2028}' || c == '\U{2029}' || c == '\U{202F}'
    || c == '\U{205F}' || c == '\U{3000}' || c == '\U{FEFF}'
  }

  /** Every character of `s` satisfies `ws`. */
  predicate AllSatisfy(s: string, ws: char -> bool) {
    forall i :: 0 <= i < |s| ==> ws(s[i])
  }

  predicate AllSpace(s: string) {
    AllSatisfy(s, IsJsSpace)
  }

  /** How many characters at the front of `s` satisfy `ws`. */
  function Leading(s: string, ws: char -> bool): (n: nat)
    ensures n <= |s|
    ensures forall i :: 0 <= i < n ==> ws(s[i])
    ensures n == |s| || !ws(s[n])
  {
    if s != [] && ws(s[0]) then
      var n := Leading(s[1..], ws);
      assert forall i :: 1 <= i <= n ==> s[i] == s[1..][i - 1];
      1 + n
    else 0
  }

  /** How many characters at the back of `s` satisfy `ws`. */
  function Trailing(s: string, ws: char -> bool): (n: nat)
    ensures n <= |s|
    ensures forall i :: |s| - n <= i < |s| ==> ws(s[i])
    ensures n == |s| || !ws(s[|s| - 1 - n])
  {
    if s != [] && ws(s[|s| - 1]) then
      var n := Trailing(s[..|s| - 1], ws);
      assert forall i :: 0 <= i < |s| - 1 ==> s[i] == s[..|s| - 1][i];
      1 + n
    else 0
  }

  /** Both ends of `s` stripped of the characters that satisfy `ws`: the
      front run first, then the back run of what is left. */
  function Strip(s: string, ws: char -> bool): (r: string)
    ensures r == [] <==> AllSatisfy(s, ws)
    ensures r != [] ==> !ws(r[0]) && !ws(r[|r| - 1])
    ensures OccursAt(s, r, Leading(s, ws))
    ensures AllSatisfy(s[..Leading(s, ws)], ws) && AllSatisfy(s[Leading(s, ws) + |r|..], ws)
  {
    var a := Leading(s, ws);
    var b := Trailing(s[a..], ws);
    RunsCoverAll(s, ws, a, b);
    RunsAreSpace(s, ws, a, b);
    if a + b < |s| then
      RunsEnd(s, ws, a, b);
      s[a..|s| - b]
    else
      []
  }

  /** The two runs meet exactly when every character satisfies `ws`. */
  lemma RunsCoverAll(s: string, ws: char -> bool, a: nat, b: nat)
    requires a <= |s| && b <= |s| - a
    requires forall i :: 0 <= i < a ==> ws(s[i])
    requires a == |s| || !ws(s[a])
    requires forall i :: |s| - a - b <= i < |s| - a ==> ws(s[a..][i])
    ensures a + b == |s| <==> AllSatisfy(s, ws)
  {
    if a < |s| {
      assert s[a..][0] == s[a];
    }
  }

  /** The front run and the back run consist of `ws` characters. */
  lemma RunsAreSpace(s: string, ws: char -> bool, a: nat, b: nat)
    requires a <= |s| && b <= |s| - a
    requires forall i :: 0 <= i < a ==> ws(s[i])
    requires forall i :: |s| - a - b <= i < |s| - a ==> ws(s[a..][i])
    ensures AllSatisfy(s[..a], ws) && AllSatisfy(s[|s| - b..], ws)
  {
    assert forall i :: 0 <= i < a ==> s[..a][i] == s[i];
    var tail := s[|s| - b..];
    forall i | 0 <= i < b ensures ws(tail[i]) {
      assert tail[i] == s[a..][|s| - a - b + i];
    }
  }

  /** The character before the back run does not satisfy `ws`. */
  lemma RunsEnd(s: string, ws: char -> bool, a: nat, b: nat)
    requires a + b < |s|
    requires b == |s[a..]| || !ws(s[a..][|s[a..]| - 1 - b])
    ensures !ws(s[|s| - 1 - b])
  {
    assert s[|s| - 1 - b] == s[a..][|s| - a - 1 - b];
  }

  /** A string that neither starts nor ends with a character satisfying
      `ws` is its own strip. */
  lemma StrippedIsFixed(s: string, ws: char -> bool)
    requires s == [] || (!ws(s[0]) && !ws(s[|s| - 1]))
    ensures Strip(s, ws) == s
  {
    assert s[0..] == s;
  }

  /** A stripped string with one strippable character after it strips to
      itself. */
  lemma StripTrailingSeparator(x: string, sep: char, ws: char -> bool)
    requires x != [] && !ws(x[0]) && !ws(x[|x| - 1]) && ws(sep)
    ensures Strip(x + [sep], ws) == x
  {
    var s := x + [sep];
    assert s[0] == x[0] && s[..|s| - 1] == x && s[0..] == s;
    assert Leading(s, ws) == 0;
    assert Trailing(s, ws) == 1 + Trailing(x, ws) == 1;
  }

  /** A stripped string with one strippable character before it strips to
      itself. */
  lemma StripLeadingSeparator(x: string, sep: char, ws: char -> bool)
    requires x != [] && !ws(x[0]) && !ws(x[|x| - 1]) && ws(sep)
    ensures Strip([sep] + x, ws) == x
  {
    var s := [sep] + x;
    assert s[1..] == x;
    assert Leading(s, ws) == 1 + Leading(x, ws) == 1;
    assert Trailing(x, ws) == 0;
  }

  /** Strip is the only way to split `s` into a run of `ws` characters, an
      infix that neither starts nor ends with one, and another such run. */
  lemma StripUnique(s: string, ws: char -> bool, t: string, i: nat)
    requires OccursAt(s, t, i) && AllSatisfy(s[..i], ws) && AllSatisfy(s[i + |t|..], ws)
    requires t == [] || (!ws(t[0]) && !ws(t[|t| - 1]))
    ensures Strip(s, ws) == t
  {
    if t == [] {
      AllSatisfyJoin(s, ws, i);
    } else {
      var b := |s| - i - |t|;
      assert s[i] == t[0] && s[i + |t| - 1] == t[|t| - 1];
      LeadingIs(s, ws, i);
      TrailingIs(s[i..], ws, b);
      assert s[i..|s| - b] == t;
    }
  }

  /** Two runs of `ws` characters side by side make one. */
  lemma AllSatisfyJoin(s: string, ws: char -> bool, i: nat)
    requires i <= |s| && AllSatisfy(s[..i], ws) && AllSatisfy(s[i..], ws)
    ensures AllSatisfy(s, ws)
  {
    forall j | 0 <= j < |s| ensures ws(s[j]) {
      if j < i { assert s[j] == s[..i][j]; } else { assert s[j] == s[i..][j - i]; }
    }
  }

  /** A run of `ws` characters ended by one that is not is the front run. */
  lemma LeadingIs(s: string, ws: char -> bool, i: nat)
    requires i < |s| && AllSatisfy(s[..i], ws) && !ws(s[i])
    ensures Leading(s, ws) == i
  {
    forall k | 0 <= k < i ensures ws(s[k]) {
      assert s[k] == s[..i][k];
    }
  }

  /** The mirror image of `LeadingIs` at the back of `s`. */
  lemma TrailingIs(s: string, ws: char -> bool, b: nat)
    requires b < |s| && AllSatisfy(s[|s| - b..], ws) && !ws(s[|s| - 1 - b])
    ensures Trailing(s, ws) == b
  {
    forall k | |s| - b <= k < |s| ensures ws(s[k]) {
      assert s[k] == s[|s| - b..][k - (|s| - b)];
    }
  }

  /** `String.prototype.trim`: `s` without its leading and trailing white
      space; empty exactly when `s` is all white space. */
  function Trim(s: string): (r: string)
    ensures r == [] <==> AllSpace(s)
    ensures r != [] ==> !IsJsSpace(r[0]) && !IsJsSpace(r[|r| - 1])
    ensures exists i :: OccursAt(s, r, i) && AllSpace(s[..i]) && AllSpace(s[i + |r|..])
  {
    Strip(s, IsJsSpace)
  }

  /** `trim` is determined by its contract: any split of `s` into white
      space, an infix without white space at either end, and white space
      again yields that infix. */
  lemma TrimUnique(s: string, t: string, i: nat)
    requires OccursAt(s, t, i) && AllSpace(s[..i]) && AllSpace(s[i + |t|..])
    requires t == [] || (!IsJsSpace(t[0]) && !IsJsSpace(t[|t| - 1]))
    ensures Trim(s) == t
  {
    StripUnique(s, IsJsSpace, t, i);
  }
}

=== FILE: users.dfy ===
/** The self-service profile and session functions behind the dashboard:
    read and edit one's profile, list, create and revoke sessions, the
    connected-apps catalogue, and account deletion. Mutations return the
    new database or the error they throw; a thrown error leaves the
    database as it was, since each mutation runs as one transaction. */
module Users {

  import opened Wrappers
  import opened Seqs
  import opened Schema

  /** `getProfile`: the caller's projection, or none when no user has that
      identity-provider id. */
  function GetProfile(db: Db, authId: string): (r: Result<Option<Profile>, Error>)
    ensures r == Ok(None) <==> !HasAuthId(db.users, authId)
    ensures r.Err? <==> DuplicatedAuthId(db.users, authId)
    ensures r.Ok? ==> forall i :: 0 <= i < |db.users| && db.users[i].authId == authId ==>
      r.value == Some(ProfileOf(db.users[i]))
  {
    var found :- FindByAuthId(db.users, authId);
    match found
    case None => Ok(None)
    case Some(i) => Ok(Some(ProfileOf(db.users[i])))
  }

  /** `getById`: the user with that document id, or none. */
  function GetById(db: Db, id: nat): (r: Option<UserView>)
    ensures r.None? <==> forall i :: 0 <= i < |db.users| ==> db.users[i].id != id
    ensures r.Some? ==> exists i :: 0 <= i < |db.users| && db.users[i].id == id && r.value == UserViewOf(db.users[i])
    ensures Valid(db) ==> forall i :: 0 <= i < |db.users| && db.users[i].id == id ==> r == Some(UserViewOf(db.users[i]))
  {
    match FindById(db.users, id)
    case None => None
    case Some(i) => Some(UserViewOf(db.users[i]))
  }

  /** The names of the fields an `updateProfile` call supplied, in the order
      the update object lists them. */
  function ChangedFields(name: Option<string>, avatarUrl: Option<string>): (r: seq<string>)
    ensures forall f :: f in r <==> (f == "name" && name.Some?) || (f == "avatarUrl" && avatarUrl.Some?)
    ensures |r| == (if name.Some? then 1 else 0) + (if avatarUrl.Some? then 1 else 0)
    ensures name.Some? && avatarUrl.Some? ==> r == ["name", "avatarUrl"]
  {
    (if name.Some? then ["name"] else []) + (if avatarUrl.Some? then ["avatarUrl"] else [])
  }

  /** The user after a self-service edit: a supplied field replaces the
      stored one, an omitted one is kept. */
  function Edited(u: User, name: Option<string>, avatarUrl: Option<string>, now: int): User {
    u.(name := if name.Some? then name else u.name,
       avatarUrl := if avatarUrl.Some? then avatarUrl else u.avatarUrl,
       updatedAt := now)
  }

  /** `updateProfile`. */
  function UpdateProfile(db: Db, authId: string, name: Option<string>, avatarUrl: Option<string>, now: int)
    : (r: Result<Db, Error>)
    ensures r == Err(UserNotFound) <==> !HasAuthId(db.users, authId)
    ensures r == Err(NotUnique) <==> DuplicatedAuthId(db.users, authId)
    ensures r.Ok? ==> |r.value.users| == |db.users|
    ensures r.Ok? ==> forall i :: 0 <= i < |db.users| ==>
      && (db.users[i].authId != authId ==> r.value.users[i] == db.users[i])
      && (db.users[i].authId == authId ==>
            && r.value.users[i].name == (if name.Some? then name else db.users[i].name)
            && r.value.users[i].avatarUrl == (if avatarUrl.Some? then avatarUrl else db.users[i].avatarUrl)
            && r.value.users[i].updatedAt == now
            && r.value.users[i].(name := db.users[i].name, avatarUrl := db.users[i].avatarUrl,
                                 updatedAt := db.users[i].updatedAt) == db.users[i])
    ensures r.Ok? ==> r.value.sessions == db.sessions
    ensures r.Ok? ==> AppendsOne(db.auditLogs, r.value.auditLogs)
    ensures r.Ok? ==>
      Newest(r.value.auditLogs)
      == AuditEntry(db.nextId, ProfileUpdated, Some(authId), None, ProfileChanges(ChangedFields(name, avatarUrl)), now)
    ensures r.Ok? && Valid(db) ==> Valid(r.value)
    ensures r.Ok? <==> HasAuthId(db.users, authId) && !DuplicatedAuthId(db.users, authId)
    ensures r.Ok? && UniqueAuthIds(db.users) ==> UniqueAuthIds(r.value.users)
  {
    var found :- FindByAuthId(db.users, authId);
    match found
    case None => Err(UserNotFound)
    case Some(i) =>
      var u := db.users[i];
      var patched := PutUser(db, i, Edited(u, name, avatarUrl, now));
      Ok(AppendLog(patched, ProfileUpdated, Some(u.authId), None, ProfileChanges(ChangedFields(name, avatarUrl)), now))
  }

  /** A session as `getSessions` lists it; whether it is the caller's
      current one is left to the client. */
  datatype ListedSession = ListedSession(session: SessionView, isCurrent: bool)

  /** `getSessions`: every session of the user, in table order. */
  function GetSessions(db: Db, userId: string): (r: seq<ListedSession>)
    ensures |r| == |SessionsOf(db.sessions, userId)|
    ensures forall k :: 0 <= k < |r| ==> !r[k].isCurrent
    ensures forall k :: 0 <= k < |r| ==>
      exists i :: 0 <= i < |db.sessions| && db.sessions[i].userId == userId
        && r[k].session == SessionViewOf(db.sessions[i])
    ensures forall i :: 0 <= i < |db.sessions| && db.sessions[i].userId == userId ==>
      ListedSession(SessionViewOf(db.sessions[i]), false) in r
  {
    var own := SessionsOf(db.sessions, userId);
    var r := Map(own, (s: Session) => ListedSession(SessionViewOf(s), false));
    assert forall k :: 0 <= k < |r| ==> own[k] in db.sessions && r[k].session == SessionViewOf(own[k]);
    forall i | 0 <= i < |db.sessions| && db.sessions[i].userId == userId
      ensures ListedSession(SessionViewOf(db.sessions[i]), false) in r
    {
      assert db.sessions[i] in own;
      var k :| 0 <= k < |own| && own[k] == db.sessions[i];
      assert r[k] == ListedSession(SessionViewOf(db.sessions[i]), false);
    }
    r
  }

  /** `createSession`: a new session for `userId`, stamped `now`; its id is
      returned. */
  function CreateSession(db: Db, userId: string, deviceInfo: string, ipAddress: Option<string>, now: int)
    : (r: (Db, nat))
    ensures |r.0.sessions| == |db.sessions| + 1 && r.0.sessions[..|db.sessions|] == db.sessions
    ensures SessionsOf(r.0.sessions, userId)
         == SessionsOf(db.sessions, userId) + [Session(r.1, userId, deviceInfo, ipAddress, now, now)]
    ensures forall other :: other != userId ==> SessionsOf(r.0.sessions, other) == SessionsOf(db.sessions, other)
    ensures r.0.users == db.users && r.0.auditLogs == db.auditLogs
    ensures Valid(db) ==> Valid(r.0) && forall i :: 0 <= i < |db.sessions| ==> db.sessions[i].id != r.1
  {
    var s := Session(0, userId, deviceInfo, ipAddress, now, now);
    var r := InsertSession(db, s);
    InsertSessionFrame(db.sessions, s.(id := r.1), userId);
    forall other | other != userId
      ensures SessionsOf(r.0.sessions, other) == SessionsOf(db.sessions, other)
    {
      InsertSessionFrame(db.sessions, s.(id := r.1), other);
    }
    assert r.0.sessions[..|db.sessions|] == db.sessions;
    r
  }

  function WithSessionId(id: nat): Session -> bool {
    (s: Session) => s.id == id
  }

  /** `revokeSession`: deletes the caller's session `sessionId`. */
  function RevokeSession(db: Db, sessionId: nat, userId: string, now: int): (r: Result<Db, Error>)
    ensures r.Err? ==> r.error == SessionNotFoundOrUnauthorized
    ensures Valid(db) ==> (r.Ok? <==>
      exists i :: 0 <= i < |db.sessions| && db.sessions[i].id == sessionId && db.sessions[i].userId == userId)
    ensures r.Ok? ==> r.value.users == db.users && AppendsOne(db.auditLogs, r.value.auditLogs)
    ensures r.Ok? ==>
      exists i :: (
        && 0 <= i < |db.sessions|
        && db.sessions[i].id == sessionId && db.sessions[i].userId == userId
        && r.value.sessions == RemoveAt(db.sessions, i)
        && Newest(r.value.auditLogs)
           == AuditEntry(db.nextId, SessionRevoked, Some(userId), None, RevokedDevice(db.sessions[i].deviceInfo), now))
    ensures r.Ok? ==> forall other :: other != userId ==> SessionsOf(r.value.sessions, other) == SessionsOf(db.sessions, other)
    ensures r.Ok? && Valid(db) ==> Valid(r.value)
  {
    match FirstWhere(db.sessions, WithSessionId(sessionId))
    case None => Err(SessionNotFoundOrUnauthorized)
    case Some(i) =>
      var s := db.sessions[i];
      if s.userId != userId then
        assert Valid(db) ==> forall j :: 0 <= j < |db.sessions| && db.sessions[j].id == sessionId ==> j == i;
        Err(SessionNotFoundOrUnauthorized)
      else
        var removed := DeleteSessionAt(db, i);
        assert forall other :: other != userId ==> SessionsOf(removed.sessions, other) == SessionsOf(db.sessions, other) by {
          forall other | other != userId
            ensures SessionsOf(removed.sessions, other) == SessionsOf(db.sessions, other)
          {
            DeleteSessionAtFrame(db.sessions, i, other);
          }
        }
        Ok(AppendLog(removed, SessionRevoked, Some(userId), None, RevokedDevice(s.deviceInfo), now))
  }

  /** `revokeAllSessions`: deletes every session of `userId` and returns how
      many there were. Having none is not an error. */
  function RevokeAllSessions(db: Db, userId: string, now: int): (r: (Db, nat))
    ensures SessionsOf(r.0.sessions, userId) == []
    ensures r.1 == |SessionsOf(db.sessions, userId)|
    ensures |r.0.sessions| == |db.sessions| - r.1
    ensures forall other :: other != userId ==> SessionsOf(r.0.sessions, other) == SessionsOf(db.sessions, other)
    ensures r.0.users == db.users
    ensures AppendsOne(db.auditLogs, r.0.auditLogs)
    ensures Newest(r.0.auditLogs) == AuditEntry(db.nextId, SessionsRevokedAll, Some(userId), None, RevokedCount(r.1), now)
    ensures Valid(db) ==> Valid(r.0)
  {
    var count := |SessionsOf(db.sessions, userId)|;
    DeleteSessionsOfFrame(db.sessions, userId);
    var cleared := DeleteSessionsOf(db, userId);
    (AppendLog(cleared, SessionsRevokedAll, Some(userId), None, RevokedCount(count), now), count)
  }

  /** One entry of the connected-apps catalogue. */
  datatype ConnectedApp = ConnectedApp(
    id: string,
    name: string,
    description: string,
    iconUrl: string,
    lastAccess: Option<int>)

  /** `getConnectedApps`: a fixed catalogue, the same for every user; no
      access is ever recorded. */
  function GetConnectedApps(userId: string): (r: seq<ConnectedApp>)
    ensures |r| == 3
    ensures r[0].id == "learning-platform" && r[1].id == "portfolio" && r[2].id == "stock-management"
    ensures forall k :: 0 <= k < |r| ==> r[k].lastAccess == None
  {
    [ ConnectedApp("learning-platform", "NexusLearn", "AI-powered learning platform", "/icons/nexuslearn.svg", None),
      ConnectedApp("portfolio", "Portfolio", "Developer portfolio", "/icons/portfolio.svg", None),
      ConnectedApp("stock-management", "Stock Manager", "Inventory tracking system", "/icons/stock.svg", None) ]
  }

  /** `deleteAccount`: deletes the user's sessions, logs the deletion with
      the user's email, then deletes the user. */
  function DeleteAccount(db: Db, authId: string, now: int): (r: Result<Db, Error>)
    ensures r == Err(UserNotFound) <==> !HasAuthId(db.users, authId)
    ensures r == Err(NotUnique) <==> DuplicatedAuthId(db.users, authId)
    ensures r.Ok? ==> !HasAuthId(r.value.users, authId)
    ensures r.Ok? ==> AppendsOne(db.auditLogs, r.value.auditLogs)
    ensures r.Ok? ==>
      exists i :: (
        && 0 <= i < |db.users| && db.users[i].authId == authId
        && r.value.users == RemoveAt(db.users, i)
        && Newest(r.value.auditLogs)
           == AuditEntry(db.nextId, AccountDeleted, Some(authId), None, DeletedEmail(db.users[i].email), now))
    ensures r.Ok? ==> SessionsOf(r.value.sessions, authId) == []
    ensures r.Ok? ==> forall other :: other != authId ==> SessionsOf(r.value.sessions, other) == SessionsOf(db.sessions, other)
    ensures r.Ok? && Valid(db) ==> Valid(r.value)
    ensures r.Ok? <==> HasAuthId(db.users, authId) && !DuplicatedAuthId(db.users, authId)
    ensures r.Ok? && UniqueAuthIds(db.users) ==> UniqueAuthIds(r.value.users)
  {
    var found :- FindByAuthId(db.users, authId);
    match found
    case None => Err(UserNotFound)
    case Some(i) =>
      var u := db.users[i];
      DeleteSessionsOfFrame(db.sessions, authId);
      var cleared := DeleteSessionsOf(db, authId);
      var logged := AppendLog(cleared, AccountDeleted, Some(authId), None, DeletedEmail(u.email), now);
      Ok(DeleteUserAt(logged, i))
  }
}

=== FILE: workos.dfy ===
/** The second copy of the webhook handlers. It behaves like the one in
    the Auth module except that a `user.updated` or `user.deleted` event
    for an unknown account produces a warning. */
module Workos {

  import opened Wrappers
  import opened Seqs
  import opened Schema
  import Auth

  /** A handler's effect: the new database and the warning it logged, if
      any. */
  datatype Outcome = Outcome(db: Db, warning: Option<string>)

  /** The `user.created` handler. */
  function OnUserCreated(db: Db, data: Auth.EventData, now: int): (r: Outcome)
    ensures r.warning.None?
    ensures |r.db.users| == |db.users| + 1 && r.db.users[..|db.users|] == db.users
    ensures r.db.users[|db.users|]
         == User(db.nextId, data.id, data.email, Auth.DisplayName(data.firstName, data.lastName),
                 data.profilePictureUrl, Some(UserRole), now, now)
    ensures r.db.sessions == db.sessions && r.db.auditLogs == db.auditLogs
    ensures Valid(db) ==> Valid(r.db)
    ensures UniqueAuthIds(r.db.users) <==> UniqueAuthIds(db.users) && !HasAuthId(db.users, data.id)
  {
    var (next, _) := InsertUser(db, data.id, data.email, Auth.DisplayName(data.firstName, data.lastName),
                                data.profilePictureUrl, Some(UserRole), now);
    assert next.users[..|db.users|] == db.users;
    Auth.AppendUserUniqueness(db.users, next.users[|db.users|]);
    Outcome(next, None)
  }

  /** The `user.updated` handler: an unknown account is reported and left
      alone; a known one gets email, name, avatar and `updatedAt` from the
      event. */
  function OnUserUpdated(db: Db, data: Auth.EventData, now: int): (r: Result<Outcome, Error>)
    ensures r.Err? <==> DuplicatedAuthId(db.users, data.id)
    ensures !HasAuthId(db.users, data.id) <==> r == Ok(Outcome(db, Some("User not found for update: " + data.id)))
    ensures r.Ok? ==> |r.value.db.users| == |db.users|
    ensures r.Ok? ==> forall i :: 0 <= i < |db.users| ==>
      && (db.users[i].authId != data.id ==> r.value.db.users[i] == db.users[i])
      && (db.users[i].authId == data.id ==>
            r.value.db.users[i]
            == db.users[i].(email := data.email, name := Auth.DisplayName(data.firstName, data.lastName),
                            avatarUrl := data.profilePictureUrl, updatedAt := now))
    ensures r.Ok? ==> r.value.db.sessions == db.sessions && r.value.db.auditLogs == db.auditLogs
    ensures r.Ok? && Valid(db) ==> Valid(r.value.db)
    ensures r.Ok? && UniqueAuthIds(db.users) ==> UniqueAuthIds(r.value.db.users)
  {
    var found :- FindByAuthId(db.users, data.id);
    if found.None? then
      Ok(Outcome(db, Some("User not found for update: " + data.id)))
    else
      var i := found.value;
      var u := db.users[i];
      var patched := u.(email := data.email, name := Auth.DisplayName(data.firstName, data.lastName),
                        avatarUrl := data.profilePictureUrl, updatedAt := now);
      Ok(Outcome(PutUser(db, i, patched), None))
  }

  /** The `user.deleted` handler: removes exactly the matching account; an
      unknown one is reported and nothing changes. */
  function OnUserDeleted(db: Db, data: Auth.EventData): (r: Result<Outcome, Error>)
    ensures r.Err? <==> DuplicatedAuthId(db.users, data.id)
    ensures !HasAuthId(db.users, data.id) <==> r == Ok(Outcome(db, Some("User not found for deletion: " + data.id)))
    ensures r.Ok? && HasAuthId(db.users, data.id) ==>
      && r.value.warning.None?
      && exists i :: 0 <= i < |db.users| && db.users[i].authId == data.id && r.value.db.users == RemoveAt(db.users, i)
    ensures r.Ok? ==> !HasAuthId(r.value.db.users, data.id)
    ensures r.Ok? ==> r.value.db.sessions == db.sessions && r.value.db.auditLogs == db.auditLogs
    ensures r.Ok? && Valid(db) ==> Valid(r.value.db)
    ensures r.Ok? && UniqueAuthIds(db.users) ==> UniqueAuthIds(r.value.db.users)
  {
    var found :- FindByAuthId(db.users, data.id);
    if found.None? then
      Ok(Outcome(db, Some("User not found for deletion: " + data.id)))
    else
      Ok(Outcome(DeleteUserAt(db, found.value), None))
  }

  /** Apart from the warnings, both copies of the handlers change the
      database in the same way, event for event. */
  lemma {:induction false} AgreesWithAuth(db: Db, event: Auth.WebhookEvent, now: int)
    ensures match event
      case UserCreated(data) => OnUserCreated(db, data, now).db == Auth.OnUserCreated(db, data, now)
      case UserUpdated(data) =>
        && (OnUserUpdated(db, data, now).Ok? <==> Auth.OnUserUpdated(db, data, now).Ok?)
        && (OnUserUpdated(db, data, now).Ok? ==> OnUserUpdated(db, data, now).value.db == Auth.OnUserUpdated(db, data, now).value)
      case UserDeleted(data) =>
        && (OnUserDeleted(db, data).Ok? <==> Auth.OnUserDeleted(db, data).Ok?)
        && (OnUserDeleted(db, data).Ok? ==> OnUserDeleted(db, data).value.db == Auth.OnUserDeleted(db, data).value)
  {
    match event
    case UserCreated(data) =>
    case UserUpdated(data) =>
      var w := OnUserUpdated(db, data, now);
      var a := Auth.OnUserUpdated(db, data, now);
      if w.Ok? && a.Ok? {
        assert |w.value.db.users| == |a.value.users|;
        forall i | 0 <= i < |db.users| ensures w.value.db.users[i] == a.value.users[i] {
        }
      }
    case UserDeleted(data) =>
      if HasAuthId(db.users, data.id) && OnUserDeleted(db, data).Ok? {
        var i :| 0 <= i < |db.users| && db.users[i].authId == data.id && OnUserDeleted(db, data).value.db.users == RemoveAt(db.users, i);
        var j :| 0 <= j < |db.users| && db.users[j].authId == data.id && Auth.OnUserDeleted(db, data).value.users == RemoveAt(db.users, j);
        assert i == j;
      }
  }
}

=== FILE: wrappers.dfy ===
/** Failure-carrying values used throughout the model: `Option` for the
    source's `undefined`/`null`, `Result` for a function that either returns
    or throws. */
module Wrappers {

  datatype Option<+T> = None | Some(value: T) {

    /** The value, or `default` when absent (JavaScript's `x ?? default`). */
    function GetOr(default: T): T {
      match this
      case Some(v) => v
      case None => default
    }
  }

  /** `Ok` is a normal return, `Err` a thrown error. Failure-compatible, so
      `:-` propagates an `Err` the way an uncaught exception does. */
  datatype Result<+T, +E> = Ok(value: T) | Err(error: E) {

    predicate IsFailure() {
      Err?
    }

    function PropagateFailure<U>(): Result<U, E>
      requires Err?
    {
      Err(error)
    }

    function Extract(): T
      requires Ok?
    {
      value
    }
  }
}
